=== FILE: README.md ===
# mobx-form state logic in Dafny

This project models the non-UI state logic of the mobx-form library and proves
properties of it.

- **FieldState** holds a field's current, default and initial value, its
  validators, and a one-time link to its parent form.
- **Field** adds a hint and the *presented* error, the message the user sees.
  The presented error is kept apart from the live validation error.
- **ManualField** presents the live error on every change.
- **Input** is a small state machine over focus, value and presented error.
  Its `showErrors` mode is `onWrite`, `onBlur` or `onSubmit`.
- **TextInput**, **select** and **multiSelect** only choose default values.
- **Form** is a keyed map of fields with these views: `values`,
  `dirtyValues`, `isValid`, `isDirty` and `isReadyToSubmit`. It also has a
  submit, modelled as two phases.
- **Validators**: `valid`, `invalid`, `makeValidator` with `:label`
  substitution, the length family with `:length` substitution, and
  `required`.
- **deprecatedMethod**: the warning text it builds.

Everything is modelled as immutable datatypes and pure functions. A mutation
in the library becomes a function from the old state to the new one. A throw
becomes a `Failure` of a `Result`.

Modules, in dependency order:

- `Wrappers` (`Option`, `Result`).
- `JsValues`: the JavaScript values a field can hold.
  - `===` compares arrays and objects by identity (a `Ref` tag) and
    primitives by content.
  - Truthiness and `.length` are modelled too.
- `Strings`: `String.prototype.replace` with a string pattern, following
  section 22.1.3.18 of ECMAScript 2023.
  - Only the leftmost occurrence is replaced.
  - The `$` replacement patterns of GetSubstitution (section 22.1.3.18.1)
    are applied.
  - Also `Number.prototype.toString` for integers.
- `Config`: the default messages.
- `Validators`, `FieldStates`, `Fields`, `ManualFields`, `Inputs`, `Widgets`,
  `Deprecation`, `Forms`.

The parent form is an opaque `FormId`, so validators and fields carry no
recursive form type. A validator is a function value of type
`(JsValue, Option<FormId>, Option<string>) -> ValidationResult`.

Every field class is the one datatype `Fields.Field`. Its `kind` is `Manual`
or `Input(placeholder, showErrors, isFocused)`, so a form's map keeps an
input's focus state.

Constructor parameters are `Option`s: `None` is a property left out. A
destructuring default fires on a missing or `undefined` property
(`JsValues.OrDefault`). `select` and `multiSelect` build their parameters with
an object spread instead, so an explicit `defaultValue: undefined` survives
there (`Widgets.SpreadDefault`).

Form construction is modelled over an explicit enumeration `keys` of the
field object's own keys, in iteration order. A throw reports the position
that threw and the fields as the throw leaves them: those enumerated before
it are already attached.

Submit is split in two:
- `BeginSubmit` syncs every field's error and decides whether the callback is
  invoked.
- `FinishSubmit` is the moment the callback's promise settles.

The two constructor parameter types disagree:
- src/Field/types.ts:1-6 makes `value` required and has no `defaultValue`.
- src/utils/FieldState/types.ts:3-9 makes `defaultValue` required and `value`
  optional.

The code passes the parameters straight to FieldState, so the model follows
FieldState. Every property is optional in the model. A missing
`defaultValue` behaves as `undefined`, as the destructuring does at run
time.

`isDisabled` is fixed at construction: the state has no setter for it. No
field class has a `setIsDisabled` or a `clearError` either.

## Model

| member | source | states |
|---|---|---|
| JsValues.StrictEquals | src/utils/FieldState/index.ts:46-48 | `===` holds for equal values; for a primitive it holds iff the values are equal; for two arrays or two objects iff their identities match; never between an array and an object |
| JsValues.DistinctArraysDiffer | src/utils/FieldState/index.ts:47 | two arrays with the same elements but different identities are not `===` |
| JsValues.StrictEqualsIsEquivalence | src/utils/FieldState/index.ts:47 | `===` on this value space is reflexive, symmetric and transitive |
| JsValues.Truthy | src/validators/required.ts:11 | `!!v`: every array and object is truthy; a primitive is falsy iff it is undefined, null, false, 0 or '' |
| JsValues.JsLength | src/validators/minLength.ts:12 | `v.length`: present exactly for strings and arrays, and then their number of characters or elements |
| JsValues.OrDefault | src/utils/FieldState/index.ts:20-26 | a destructuring default: a given, non-undefined value is kept; otherwise the default is used; the result is undefined only if the default is |
| Strings.IndexFrom | src/validators/utils.ts:10 | the leftmost occurrence of the pattern at or after a position, or none when no later position holds it |
| Strings.IndexOf | src/validators/utils.ts:10 | the leftmost occurrence of the pattern; none exactly when the pattern occurs nowhere |
| Strings.Substitution | src/validators/utils.ts:10 | GetSubstitution (section 22.1.3.18.1 of ECMAScript 2023): a replacement without `$` is inserted verbatim |
| Strings.SubstitutionPatterns | src/validators/utils.ts:10 | `$$` gives `$`, `$&` the matched text, `` $` `` the text before the match, `$'` the text after it; a `$` before any other character, and a lone final `$`, stay literal |
| Strings.SubstitutionHead | src/validators/utils.ts:10 | a `$$`, `$&`, `` $` `` or `$'` at the head of a replacement is consumed as one unit and the rest is substituted on its own |
| Strings.EscapedDollarBeforeAmpersand | src/validators/utils.ts:10 | `$$&` gives `$&`: the escaped dollar is not re-read as part of `$&` |
| Strings.SubstitutionAppend | src/validators/utils.ts:10 | a replacement is substituted piece by piece: splitting it anywhere except right after a `$` and substituting the parts gives the same text |
| Strings.ReplaceFirst | src/validators/utils.ts:10 | `replace` with a string pattern: unchanged without an occurrence; otherwise only the leftmost occurrence is replaced, using GetSubstitution |
| Strings.ReplaceFirstLiteral | src/validators/utils.ts:10 | with a `$`-free replacement the leftmost occurrence becomes the replacement and the rest, later occurrences included, is kept |
| Strings.NoOccurrenceWithoutHead | src/validators/utils.ts:10 | a pattern whose first character is absent from the string never occurs in it, so `replace` leaves the string alone |
| Strings.FirstOccurrenceAfter | src/validators/minLength.ts:13 | in `p + pat + q`, the leftmost occurrence is right after `p` when `p` lacks the pattern's first character |
| Strings.ReplaceInTemplate | src/validators/minLength.ts:13 | substituting into `p + pat + q` gives `p + rep + q` |
| Strings.NatToDecimal | src/validators/minLength.ts:13 | the decimal digits of a natural number: non-empty, digits only, no leading zero |
| Strings.IntToDecimal | src/validators/minLength.ts:13 | `n.toString()` for an integer: a minus sign for negatives, and never a `$` or a `:` |
| Strings.NatDecimalRoundTrip | src/validators/minLength.ts:13 | reading back the decimal digits of `n` gives `n` |
| Strings.IntDecimalRoundTrip | src/validators/minLength.ts:13 | reading back `n.toString()` gives `n`, so distinct lengths give distinct messages |
| Validators.Valid | src/validators/results.ts:3-5 | `valid()` passes with an empty message |
| Validators.Invalid | src/validators/results.ts:7-9 | `invalid(m)` fails with exactly `m`, even `''` |
| Validators.LabelOrFallback | src/validators/utils.ts:10 | `label \|\| 'Field'`: a non-empty label is kept; an absent or empty label becomes 'Field' |
| Validators.MakeValidator | src/validators/utils.ts:4-12 | valid whenever the predicate holds; otherwise invalid with the first `:label` replaced by the label or 'Field' |
| Validators.ValidityIgnoresLabel | src/validators/utils.ts:7-9 | whether the validator passes is the predicate's verdict on value and form; the label never changes it |
| Validators.MessageWithoutLabelUnchanged | src/validators/utils.ts:10 | on failure a message without `:label` is reported unchanged, whatever the label |
| Validators.LabelledMessage | src/validators/utils.ts:10 | `message.replace(':label', label \|\| 'Field')`: unchanged without `:label`; otherwise the leftmost `:label` is replaced, with GetSubstitution applied to the label |
| Validators.LabelSubstitution | src/validators/utils.ts:10 | on failure only the leftmost `:label` is replaced by the label or 'Field'; literal insertion is stated only for labels without `$`, since GetSubstitution expands `$&` and the like |
| Validators.LengthMessage | src/validators/minLength.ts:13 | `message.replace(':length', n.toString())`: unchanged without `:length`; otherwise the leftmost `:length` becomes the decimal digits of `n` |
| Validators.MinLength | src/validators/minLength.ts:7-15 | a string passes iff its length is at least `n`; a value without a length fails; the failure message is the configured or default message with `:length` and then `:label` filled |
| Validators.MaxLength | src/validators/maxLength.ts:7-15 | a string passes iff its length is at most `n`; same failure message scheme with the maxLength default |
| Validators.Length | src/validators/length.ts:7-15 | a string passes iff its length is exactly `n`; same failure message scheme with the length default |
| Validators.Required | src/validators/required.ts:7-14 | passes iff the value is truthy; on failure the configured or default message with `:label` filled |
| Validators.LengthRejectsShorterAndLonger | src/validators/length.ts:12 | `length(n)` rejects any string whose length is not `n`, and so does one of `minLength(n)` and `maxLength(n)` |
| Validators.DefaultMinLengthMessage | src/config/index.ts:12 | with the default config, a failing `minLength(n)` reports 'Must have at least ' + n + ' characters' |
| Validators.DefaultMaxLengthMessage | src/config/index.ts:11 | with the default config, a failing `maxLength(n)` reports 'Must have at most ' + n + ' characters' |
| Validators.DefaultLengthMessage | src/config/index.ts:10 | with the default config, a failing `length(n)` reports 'Must have exactly ' + n + ' characters' |
| Validators.FilledTemplate | src/validators/minLength.ts:13 | a colon-free template around `:length` is filled with `n` and then unaffected by the label step |
| Validators.NoLengthKeyInLabelTemplate | src/validators/minLength.ts:13 | a message whose only colon starts `:label` holds no `:length`, so the build step leaves it alone |
| Validators.LabelOnlyTemplate | src/validators/minLength.ts:11-14 | for a label without `$`, a length-validator message with only `:label` keeps its text and gets the label, or 'Field' |
| Validators.LengthThenLabelTemplate | src/validators/minLength.ts:11-14 | for a label without `$`, `:length` is filled at build time and `:label` at failure, so a message with both gets both |
| Validators.DefaultRequiredMessage | src/config/index.ts:13 | a failing `required()` reports 'This field is mandatory' whatever the label |
| Validators.RequiredAcceptsEmptyArray | src/validators/required.ts:11 | an empty array is truthy, so `required` accepts it |
| FieldStates.AttachErrorMessage | src/utils/FieldState/index.ts:6-8 | the already-attached message is the fixed text, the field's label in quotes, then the fixed text saying fields attach once |
| FieldStates.IsDirty | src/utils/FieldState/index.ts:46-48 | `value !== initialValue`: clean when unchanged; for primitives dirty iff the values differ; for two arrays dirty iff their identities differ, whatever their elements |
| FieldStates.New | src/utils/FieldState/index.ts:20-33 | label '' and enabled unless given; no validators unless given; the value defaults to the default value and is also the initial value; no parent; not dirty |
| FieldStates.Results | src/utils/FieldState/index.ts:76-80 | one result per validator, in registration order, each from (value, parent form, label) |
| FieldStates.FirstFailureFrom | src/utils/FieldState/index.ts:72-74 | the first failing result from a position on, or none when all later ones pass |
| FieldStates.FirstFailure | src/utils/FieldState/index.ts:72-74 | `find(r => !r.isValid)`: none iff every result passes; otherwise the first failing one |
| FieldStates.IsValid | src/utils/FieldState/index.ts:42-44 | valid iff every validator passes on (value, parent form, label) |
| FieldStates.Error | src/utils/FieldState/index.ts:50-52 | absent iff the state is valid; otherwise the message of the first failing validator |
| FieldStates.SetValue | src/utils/FieldState/index.ts:54-56 | the value becomes `v` and nothing else changes |
| FieldStates.Clear | src/utils/FieldState/index.ts:58-60 | the value becomes the default value, nothing else changes, and the state is dirty iff the default is not `===` to the initial value |
| FieldStates.Reset | src/utils/FieldState/index.ts:62-64 | the value becomes the initial value, nothing else changes, and the state is clean |
| FieldStates.AttachToForm | src/utils/FieldState/index.ts:66-70 | succeeds iff no parent is set, and then records exactly that parent; otherwise throws the already-attached error with the label |
| FieldStates.DirtyIffDiffers | src/utils/FieldState/index.ts:46-48 | after `setValue(v)` the state is dirty iff `v` is not `===` to the initial value; setting the initial value again makes it clean |
| FieldStates.SecondAttachFails | src/utils/FieldState/index.ts:66-70 | the first attachment succeeds; a second one, to any form, throws, and the first parent stays |
| FieldStates.NoValidatorsNoError | src/utils/FieldState/index.ts:24 | with no validators a state is valid and has no error |
| Fields.New | src/Field/index.ts:14-21 | hint '' unless given; the state is the FieldState built from the rest; the presented error starts '' even when the value is invalid |
| Fields.LiveError | src/Field/index.ts:69 | `error \|\| ''`: '' when valid, otherwise the first failing validator's message |
| Fields.SyncError | src/Field/index.ts:68-70 | the presented error becomes the live error, '' when valid; nothing else changes |
| Fields.ShowError | src/Field/index.ts:72-74 | the presented error becomes exactly `m`, whatever the validity; nothing else changes |
| Fields.Reset | src/Field/index.ts:63-66 | the value becomes the initial value, so the field is clean, and the presented error becomes '' |
| Fields.SetValue | src/Field/index.ts:80-82 | the value becomes `v`; presented error, hint and kind are untouched |
| Fields.AttachToForm | src/Field/index.ts:76-78 | forwards to the state: succeeds iff the field is not attached, otherwise throws the already-attached error with its label |
| Fields.SyncErrorIdempotent | src/Field/index.ts:68-70 | syncing twice presents the same as syncing once |
| Fields.InvalidWithEmptyMessage | src/validators/results.ts:7-9 | a field whose first validator returns `invalid('')` is invalid, yet syncing presents '' |
| ManualFields.New | src/ManualField/index.ts:27-29 | `manualField(p)` is a manual field over the state built from `p`, with hint '' unless given and no error presented |
| ManualFields.Change | src/ManualField/index.ts:13-16 | the value becomes `v`, and the presented error becomes the live error of `v` ('' when valid) |
| ManualFields.ChangePresentsLiveError | src/ManualField/index.ts:13-24 | after a change, whatever was shown before, the presented error is the live one, so a valid value clears a shown error; `set` and `select` equal `change` |
| Inputs.New | src/Input/index.ts:12-21 | unfocused; placeholder '' and mode onBlur unless given; no error presented |
| Inputs.Focus | src/Input/index.ts:36-38 | focused, and nothing else changes |
| Inputs.FocusIdempotent | src/Input/index.ts:36-38 | focusing twice is focusing once |
| Inputs.Write | src/Input/index.ts:40-44 | the intended `write(v)`: focused, the value becomes `v`, the hint is kept, and the error is synced iff the new value is valid or the mode is onWrite; otherwise the shown error stays |
| Inputs.WriteAsWritten | src/Input/index.ts:40-44 | `write(v)` as written: focused, but the value and the state are unchanged; hint, placeholder and mode are kept; the error is synced iff the old value is valid or the mode is onWrite, and otherwise the shown error stays |
| Inputs.WriteAsWrittenKeepsValue | src/Input/index.ts:42 | as written, writing 'new value' into an input holding 'initial value' leaves 'initial value'; the intended write stores 'new value' |
| Inputs.Blur | src/Input/index.ts:46-49 | unfocused; the error is synced only in onBlur mode and kept otherwise; value unchanged |
| Inputs.ValidWriteClearsError | src/Input/index.ts:43 | a valid write clears the shown error in every mode |
| Inputs.OnWriteShowsError | src/Input/index.ts:43 | in onWrite mode an invalid write shows the live error at once |
| Inputs.OnBlurShowsErrorOnBlur | src/Input/index.ts:43-48 | in onBlur mode an invalid write keeps the shown error, and the following blur shows the live error |
| Inputs.OnSubmitKeepsError | src/Input/index.ts:43-48 | in onSubmit mode neither an invalid write nor a blur changes the shown error |
| Widgets.NewTextInput | src/TextInput/index.ts:4-15 | an input whose state is built from the caller's parameters (label, validators, disabled flag, value) with the default value '' unless given; a given value is kept, and the value is '' when neither default nor value is given; hint and placeholder from the parameters; unfocused, clean, nothing shown |
| Widgets.SpreadDefault | src/select/index.ts:10 | `{ defaultValue: d, ...p }`: a default the caller wrote, even undefined, wins over `d`; nothing else changes |
| Widgets.NewSelect | src/select/index.ts:9-11 | a manual field whose state is built from the caller's parameters with the default null unless given; a given value is kept, and the value is null when neither is given; hint from the parameters; clean |
| Widgets.NewMultiSelect | src/multiSelect/index.ts:9-11 | a manual field whose state is built from the caller's parameters with a new empty array, distinct from any given array, as the default unless given; a given value is kept; hint from the parameters; clean |
| Widgets.SameElementsDifferentArrayIsDirty | src/multiSelect/index.ts:10 | changing a multi-select to another empty array makes it dirty; the same array keeps it clean |
| Widgets.ClearedMultiSelectIsDirty | src/multiSelect/index.ts:10 | given an array value and no default, clearing sets the new empty array, which is never the given one, so the field is dirty |
| Widgets.ExplicitUndefinedDefault | src/select/index.ts:10 | an explicit `defaultValue: undefined` makes a select hold undefined, while a text input still defaults to '' |
| Deprecation.DocsUrl | src/utils/deprecatedMethod.ts:2-6 | the docs URL is the repository's docs base followed by the path |
| Deprecation.KeepNonEmpty | src/utils/deprecatedMethod.ts:9 | `filter(Boolean)`: the result holds exactly the non-empty sentences of the input, keeps all when none is empty, and keeps none when all are |
| Deprecation.KeepNonEmptyAppend | src/utils/deprecatedMethod.ts:9 | filtering a concatenation is concatenating the filtered parts, so the order of the kept sentences is the input's order |
| Deprecation.Join | src/utils/deprecatedMethod.ts:9 | `join(sep)`: '' for no sentences and the sentence itself for one |
| Deprecation.JoinEnds | src/utils/deprecatedMethod.ts:9 | a join of one or more sentences starts with the first and ends with the last |
| Deprecation.KeepThree | src/utils/deprecatedMethod.ts:9 | filtering the three sentences keeps the first (never empty) and each optional one exactly when it is non-empty, in order |
| Deprecation.AlternativeSentence | src/utils/deprecatedMethod.ts:24 | `alternative && …`: '' exactly when no alternative or an empty one is given |
| Deprecation.DocsSentence | src/utils/deprecatedMethod.ts:25 | `docsPath && …`: '' exactly when no docs path or an empty one is given |
| Deprecation.JoinSentences | src/utils/deprecatedMethod.ts:8-10 | joining only empty sentences gives ''; a single sentence is returned as is |
| Deprecation.JoinThree | src/utils/deprecatedMethod.ts:8-10 | a first sentence and two optional ones are joined with '. ', each optional one only when non-empty |
| Deprecation.Message | src/utils/deprecatedMethod.ts:17-29 | the message is the DEPRECATED head naming method and class, then the alternative sentence iff the alternative is non-empty, then the docs sentence iff the docs path is non-empty, each after '. ' |
| Deprecation.Warning | src/utils/deprecatedMethod.ts:28 | the printed text is 'mobx-form: ' followed by the message |
| Forms.AttachFrom | src/Form/index.ts:109-111 | attaching from a position on succeeds iff no later field is attached, and then attaches each; otherwise it stops at the first attached field, and the earlier ones stay attached |
| Forms.New | src/Form/index.ts:21-26 | construction succeeds iff no field is already attached, and then every field is attached to the new form and it is not submitting; otherwise the first attached field in iteration order is reported with its already-attached error naming its label, and the ones before it stay attached |
| Forms.FieldsJoinOneFormOnly | src/Form/index.ts:109-111 | handing a constructed form's fields to a second form makes that construction throw |
| Forms.Values | src/Form/index.ts:50-52 | `values`: every key of the form, disabled fields included, mapped to its field's current value |
| Forms.ValuesOf | src/Form/utils.ts:12-14 | exactly the same keys, each mapped to its field's current value |
| Forms.PickFieldsBy | src/Form/index.ts:121-123 | the fields that satisfy the test, unchanged and under the same keys |
| Forms.DirtyFields | src/Form/index.ts:113-115 | `dirtyFields`: exactly the dirty fields, disabled or not, unchanged under their keys |
| Forms.EnabledFields | src/Form/index.ts:117-119 | `enabledFields`: exactly the fields that are not disabled, unchanged under their keys |
| Forms.DirtyValues | src/Form/index.ts:54-56 | `values` restricted to the dirty fields |
| Forms.IsValid | src/Form/index.ts:58-60 | valid iff every enabled field is valid; vacuously true with no enabled field |
| Forms.DisabledFieldsIgnored | src/Form/index.ts:117-119 | replacing a disabled field with any other disabled field leaves validity unchanged |
| Forms.IsDirty | src/Form/index.ts:62-64 | dirty iff the set of dirty fields is non-empty |
| Forms.IsReadyToSubmit | src/Form/index.ts:66-68 | ready iff a submit would invoke the callback and the form is dirty; never ready when clean |
| Forms.DirtyIffDirtyValues | src/Form/index.ts:62-64 | the form is dirty iff some field, disabled or not, is dirty, iff `dirtyValues` is non-empty |
| Forms.FieldAt | src/Form/index.ts:74-76 | the field under the key, absent for an unknown key |
| Forms.Select | src/Form/index.ts:78-84 | the same field as `field(key)`, absent for an unknown key, plus the deprecation warning for `Form.select` with `field` as the alternative and the Form reference page as docs path |
| Forms.EachField | src/Form/index.ts:86-88 | the action applied to every field, keys and flags unchanged |
| Forms.SyncFieldErrors | src/Form/index.ts:125-127 | every field presents its live error and is otherwise unchanged; validity and dirtiness of the form are unchanged |
| Forms.Reset | src/Form/index.ts:101-103 | every field is reset: its value becomes its initial value, so the form is clean, its presented error becomes '', and nothing else about it changes; the key set is kept |
| Forms.Clear | src/Form/index.ts:97-99 | the intended `clear()`: every value becomes its field's default value and nothing else about the field changes; the key set is kept |
| Forms.ClearAsWritten | src/Form/index.ts:97-99 | `clear()` as written: it throws iff the form has a field, and otherwise changes nothing |
| Forms.ClearAsWrittenThrows | src/Form/index.ts:98 | on a form with a field, as written `clear()` throws, while the intended one restores the default value |
| Forms.ShowErrors | src/Form/index.ts:105-107 | each known key shows its message, other fields are untouched, and the key set is unchanged |
| Forms.ShowErrorsIgnoresUnknownKeys | src/Form/index.ts:136-138 | messages for keys the form does not have have no effect |
| Forms.BeginSubmit | src/Form/index.ts:90-95 | every field's error is synced first; the callback is invoked iff the form is valid and not already submitting, and then the form is marked submitting |
| Forms.FinishSubmit | src/Form/index.ts:129-134 | when the promise settles, resolved or rejected, the submitting flag is cleared and the outcome is passed on untouched |
| Forms.SubmitAtMostOnce | src/Form/index.ts:90-95 | while a submit is in flight a second one does not invoke the callback, and the form is not ready to submit |
| Forms.InvalidFormShowsErrors | src/Form/index.ts:91-92 | an invalid form never invokes the callback, but every field shows its live error |
| Forms.SubmitCycle | src/Form/index.ts:132-133 | after the promise settles the form is idle again, and a still-valid form can be submitted again |

## Left out

- MobX observability (`makeObservable`, `makeAutoObservable`, `action`, `computed`): getters are pure functions, and mutations return a new state.
- The async submit wrapper (src/Form/utils.ts:6-10, built on `@amalgama/mobx-async-action`) and the promises: modelled by `BeginSubmit` and `FinishSubmit`. The callback's own effect on the form is not modelled, because it is code the library does not contain.
- src/validators/email.ts: its predicate is the external `isEmail` library.
- `configure` (src/config/index.ts:17-19): a deep merge into global mutable state. The default messages are constants.
- The printing by `console.warn`: `Deprecation.Warning` gives the printed text, 'mobx-form: ' followed by the message.
- Strings.StartsWithPattern and Strings.PatternText name the four two-character patterns of GetSubstitution and the text each stands for. They carry no contract of their own; `Strings.SubstitutionPatterns` and `Strings.SubstitutionHead` state them through `Substitution`.
- Deprecation.Message: it names the two optional sentences through `AlternativeSentence` and `DocsSentence`, whose bodies hold the fixed wording and the URL `DocsBaseUrl` + path. The `Form.select` text is therefore given by `Message`'s contract together with those two bodies; no lemma spells it out as one literal.
- lodash (`clone`, `every`, `pickBy`, `forEach`, `mapValues`): replaced by map comprehensions.
- The `fields` getter (src/Form/index.ts:46-48) returns a shallow copy. Fields are values here, so the copy is the map itself.
- The onChange, onFocus and onBlur callbacks that the tests expect: no such code exists in the modelled classes.
- Type-only and re-export files: src/index.ts, src/utils/types.ts, src/validators/index.ts, and the `types.ts` files (their shapes are the datatypes).
- Numbers are integers. Fractions, NaN, infinities and exponent notation in `toString` are not modelled. Arrays passed to the length validators are measured by `JsValues.JsLength`; values without a `length` are covered by the lines below.
- Strings are sequences of characters. UTF-16 surrogate pairs, which JavaScript's `length` counts as two, are not modelled.
- The object key order of JavaScript (integer-like keys first) is left to the caller of `Forms.New`, which supplies the enumeration `keys`. Inherited enumerable keys are not modelled. Neither is a key such as `toString` that names an `Object.prototype` member, which `field(key)` and `showErrors` would look up on the prototype.
- One field object stored under two keys of a form is not modelled. Fields are values, so two keys always hold independent copies.
- Validators.MinLength: a value without a `length` (null, undefined) makes the source's predicate throw a TypeError. The model makes such a value fail validation instead.
- Validators.MaxLength: same as MinLength for values without a `length`.
- Validators.Length: same as MinLength for values without a `length`.
- Validators.MinLength: a config object without a `message` makes `message.replace` throw. The model takes `None` to mean the config was left out, and it then uses the default.
- Validators.MaxLength: `maxLength(n, {})` throws at src/validators/maxLength.ts:13 for the same reason. The model uses the default message instead.
- Validators.Length: `length(n, {})` throws at src/validators/length.ts:13 for the same reason. The model uses the default message instead.
- Validators.Required: `required({})` builds a validator whose message is undefined, so a failing validation throws at src/validators/utils.ts:10. The model uses the default message instead.
- Forms.EachField: lodash `forEach` (src/Form/index.ts:87) stops at the first callback that returns `false`. The model applies the action to every field. The library's own callers (`reset`, `syncError`, `attachToForm`, and the `clear` that throws) return nothing, so for them the result is the same.
- Forms.DisabledFieldsIgnored: the parent form is an opaque `FormId`, so a validator cannot read sibling fields through it and a field's verdict depends only on its own state. In the library a validator may read other fields through the form (src/utils/FieldState/index.ts:78), and then replacing a disabled field could change another field's verdict. The lemma holds there only for validators that do not.
- Array identity: `Arr(ref, elems)` pairs an identity with a snapshot of the elements. Changing an array in place, and two fields sharing one array object, are not modelled; a change of value is always a new `Arr`.
- The Field getters `label`, `value`, `isValid`, `isDirty` and `isDisabled` (src/Field/index.ts:39-61) are defined as the state's values (`Fields.Label`, `Fields.Value`, …). So is the Input getter `isFocused` (src/Input/index.ts:32-34, `Inputs.IsFocused`). They carry no contract of their own, and the other members' contracts are stated through them.
- Validators.MessageOr is the destructuring default of the validator factories' config (src/validators/minLength.ts:9): the given message, or the default. Deprecation.Head is the fixed first sentence (src/utils/deprecatedMethod.ts:23). Both only name a value and carry no contract of their own; the validators' and `Deprecation.Message`'s contracts are stated through them.
- `textInput(p)` and `new TextInput(p)` are the same member, `Widgets.NewTextInput`. `manualField(p)` and `new ManualField(p)` are the same member, `ManualFields.New`.
- `ManualFields.Set` and `ManualFields.Select` are the aliases `set` and `select`. They are stated equal to `change` in `ManualFields.ChangePresentsLiveError`.
- Forms.Clear: the library's intended effect of `clear()` on the presented error is unknown. The model keeps the presented error unchanged, and its contract says so.

## Findings

| source | as written | input that shows it | evidently intended | confidence | as-written member | corrected member |
|---|---|---|---|---|---|---|
| src/Input/index.ts:42 | `write` assigns `this._value`, a property the field never reads, so the stored value does not change and the validity check sees the old value | an input holding 'initial value'; `write('new value')`; `value` is still 'initial value' (tests/Input.test.ts:111-117 expects 'new value') | store the value through `setValue`, then sync the error iff the new value is valid or the mode is onWrite | not executed | Inputs.WriteAsWritten, Inputs.WriteAsWrittenKeepsValue | Inputs.Write |
| src/Form/index.ts:98 | `clear` calls `field.clear()`, but no field class defines `clear`; only FieldState does, so it throws a TypeError on any form with a field | any form with at least one field; `form.clear()` | set every field's value back to its default value, as FieldState's `clear` does | not executed | Forms.ClearAsWritten, Forms.ClearAsWrittenThrows | Forms.Clear |

=== FILE: config.dfy ===
/** The library's default settings, as constants (the runtime `configure`
    merge is not modelled). */
module Config {
  const LengthMessage: string := "Must have exactly :length characters"
  const MaxLengthMessage: string := "Must have at most :length characters"
  const MinLengthMessage: string := "Must have at least :length characters"
  const RequiredMessage: string := "This field is mandatory"
}

=== FILE: deprecation.dfy ===
/** The text of the deprecation warning `deprecatedMethod` prints. */
module Deprecation {
  import opened Wrappers

  const DocsBaseUrl: string := "https://github.com/amalgamaco/mobx-form/blob/main/docs"
  const Separator: string := ". "
  const WarningPrefix: string := "mobx-form: "

  function DocsUrl(path: string): (r: string)
    ensures |r| == |DocsBaseUrl| + |path|
    ensures r[..|DocsBaseUrl|] == DocsBaseUrl && r[|DocsBaseUrl|..] == path
  {
    DocsBaseUrl + path
  }

  /** `sentences.filter(Boolean)`: drops the empty (falsy) sentences, in order. */
  function KeepNonEmpty(ss: seq<string>): (r: seq<string>)
    ensures forall i :: 0 <= i < |r| ==> r[i] != ""
    ensures |r| <= |ss|
    ensures (forall i :: 0 <= i < |ss| ==> ss[i] != "") ==> r == ss
    ensures (forall i :: 0 <= i < |ss| ==> ss[i] == "") ==> r == []
    ensures forall x :: x in r <==> x in ss && x != ""
  {
    if |ss| == 0 then []
    else if ss[0] == "" then KeepNonEmpty(ss[1..])
    else [ss[0]] + KeepNonEmpty(ss[1..])
  }

  /** Filtering distributes over concatenation. */
  lemma {:induction false} KeepNonEmptyAppend(a: seq<string>, b: seq<string>)
    ensures KeepNonEmpty(a + b) == KeepNonEmpty(a) + KeepNonEmpty(b)
    decreases |a|
  {
    if |a| > 0 {
      assert (a + b)[1..] == a[1..] + b;
      KeepNonEmptyAppend(a[1..], b);
    } else {
      assert a + b == b;
    }
  }

  /** `Array.prototype.join(sep)`. */
  function Join(ss: seq<string>, sep: string): (r: string)
    ensures |ss| == 0 ==> r == ""
    ensures |ss| == 1 ==> r == ss[0]
  {
    if |ss| == 0 then ""
    else if |ss| == 1 then ss[0]
    else ss[0] + sep + Join(ss[1..], sep)
  }

  /** A join of at least one element starts with the first and ends with the last. */
  lemma {:induction false} JoinEnds(ss: seq<string>, sep: string)
    requires |ss| >= 1
    ensures |Join(ss, sep)| >= |ss[0]| && Join(ss, sep)[..|ss[0]|] == ss[0]
    ensures |Join(ss, sep)| >= |ss[|ss| - 1]| && Join(ss, sep)[|Join(ss, sep)| - |ss[|ss| - 1]|..] == ss[|ss| - 1]
    decreases |ss|
  {
    if |ss| >= 2 {
      var rest := Join(ss[1..], sep);
      JoinEnds(ss[1..], sep);
      assert ss[1..][|ss[1..]| - 1] == ss[|ss| - 1];
      assert Join(ss, sep) == ss[0] + sep + rest;
      assert Join(ss, sep)[|Join(ss, sep)| - |ss[|ss| - 1]|..] == rest[|rest| - |ss[|ss| - 1]|..];
    }
  }

  function JoinSentences(ss: seq<string>): (r: string)
    ensures (forall i :: 0 <= i < |ss| ==> ss[i] == "") ==> r == ""
    ensures |ss| == 1 ==> r == ss[0]
  {
    Join(KeepNonEmpty(ss), Separator)
  }

  function Head(klass: string, methodName: string): string {
    "DEPRECATED method '" + methodName + "' from class '" + klass + "'"
  }

  /** `alternative && "Use '<alternative>' instead"`: '' when no alternative is given. */
  function AlternativeSentence(alternative: Option<string>): (r: string)
    ensures r == "" <==> alternative.GetOr("") == ""
  {
    if alternative.GetOr("") != "" then "Use '" + alternative.value + "' instead" else ""
  }

  /** `docsPath && "For more information about usage see <url>"`. */
  function DocsSentence(docsPath: Option<string>): (r: string)
    ensures r == "" <==> docsPath.GetOr("") == ""
  {
    if docsPath.GetOr("") != "" then "For more information about usage see " + DocsUrl(docsPath.value) else ""
  }

  /** The message is the fixed first sentence, then the alternative sentence
      iff a non-empty alternative is given, then the docs sentence iff a
      non-empty docs path is given, each after '. '. */
  function Message(klass: string, methodName: string, alternative: Option<string>, docsPath: Option<string>): (r: string)
    ensures r ==
      Head(klass, methodName)
      + (if alternative.GetOr("") != "" then Separator + AlternativeSentence(alternative) else "")
      + (if docsPath.GetOr("") != "" then Separator + DocsSentence(docsPath) else "")
  {
    var h := Head(klass, methodName);
    var a := AlternativeSentence(alternative);
    var d := DocsSentence(docsPath);
    assert |h| > 0;
    assert a != "" <==> alternative.GetOr("") != "" by {
      if alternative.GetOr("") != "" {
        assert |a| > 0;
      }
    }
    assert d != "" <==> docsPath.GetOr("") != "" by {
      if docsPath.GetOr("") != "" {
        assert |d| > 0;
      }
    }
    JoinThree(h, a, d);
    JoinSentences([h, a, d])
  }

  /** The text passed to `console.warn`: the library prefix, then the message. */
  function Warning(klass: string, methodName: string, alternative: Option<string>, docsPath: Option<string>): (r: string)
    ensures |r| >= |WarningPrefix| && r[..|WarningPrefix|] == WarningPrefix
    ensures r[|WarningPrefix|..] == Message(klass, methodName, alternative, docsPath)
  {
    WarningPrefix + Message(klass, methodName, alternative, docsPath)
  }

  /** Filtering a non-empty first sentence with two optional ones. */
  lemma {:induction false} KeepThree(h: string, a: string, d: string)
    requires h != ""
    ensures KeepNonEmpty([h, a, d]) == [h] + (if a != "" then [a] else []) + (if d != "" then [d] else [])
  {
    assert [h, a, d][1..] == [a, d] && [a, d][1..] == [d] && [d][1..] == [];
    assert KeepNonEmpty([d]) == (if d != "" then [d] else []);
    assert KeepNonEmpty([a, d]) == (if a != "" then [a] else []) + KeepNonEmpty([d]);
  }

  /** Filtering and joining a non-empty first sentence with two optional ones. */
  lemma {:induction false} JoinThree(h: string, a: string, d: string)
    requires h != ""
    ensures JoinSentences([h, a, d]) ==
      h + (if a != "" then Separator + a else "") + (if d != "" then Separator + d else "")
  {
    KeepThree(h, a, d);
    if a != "" && d != "" {
      assert KeepNonEmpty([h, a, d]) == [h, a, d];
      assert [h, a, d][1..] == [a, d] && [a, d][1..] == [d];
      assert Join([a, d], Separator) == a + Separator + d;
    } else if a != "" {
      assert KeepNonEmpty([h, a, d]) == [h, a];
      assert [h, a][1..] == [a];
    } else if d != "" {
      assert KeepNonEmpty([h, a, d]) == [h, d];
      assert [h, d][1..] == [d];
    } else {
      assert KeepNonEmpty([h, a, d]) == [h];
    }
  }

}

=== FILE: field.dfy ===
/** Field: a FieldState plus a hint and the *presented* error, the message the
    user sees, which changes only on `syncError`, `showError` and `reset`.
    The concrete field classes are told apart by `kind`. */
module Fields {
  import opened Wrappers
  import opened JsValues
  import opened Validators
  import FieldStates

  /** When an input reveals its validation error (`showErrors`). */
  datatype ErrorDisplay = OnWrite | OnBlur | OnSubmit

  /** The concrete class: a ManualField, or an Input with its own state. */
  datatype Kind =
    | Manual
    | Input(placeholder: string, showErrors: ErrorDisplay, isFocused: bool)

  /** Field constructor parameters: the hint plus the FieldState parameters. */
  datatype FieldParams = FieldParams(hint: Option<string>, state: FieldStates.FieldStateParams)

  datatype Field = Field(hint: string, state: FieldStates.FieldState, presentedError: string, kind: Kind)

  /** The Field constructor: hint '' unless given, and no error presented,
      even when the value is invalid. */
  function New(p: FieldParams, kind: Kind): (f: Field)
    ensures f.hint == p.hint.GetOr("")
    ensures f.state == FieldStates.New(p.state)
    ensures f.presentedError == ""
    ensures f.kind == kind
  {
    Field(p.hint.GetOr(""), FieldStates.New(p.state), "", kind)
  }

  // The read-only views, each that of the underlying state (the presented
  // error excepted).

  function Label(f: Field): string { f.state.fieldLabel }

  function Value(f: Field): JsValue { f.state.value }

  predicate IsValid(f: Field) { FieldStates.IsValid(f.state) }

  predicate IsDirty(f: Field) { FieldStates.IsDirty(f.state) }

  predicate IsDisabled(f: Field) { f.state.isDisabled }

  /** `error`: the presented error, not the live one. */
  function Error(f: Field): string { f.presentedError }

  /** `this._state.error || ''`: the live error, '' when valid. */
  function LiveError(s: FieldStates.FieldState): (e: string)
    ensures FieldStates.IsValid(s) ==> e == ""
    ensures !FieldStates.IsValid(s) ==> e == FieldStates.Error(s).value
  {
    FieldStates.Error(s).GetOr("")
  }

  /** `syncError()`: presents the live error ('' when valid); nothing else changes. */
  function SyncError(f: Field): (r: Field)
    ensures IsValid(f) ==> r.presentedError == ""
    ensures !IsValid(f) ==> r.presentedError == FieldStates.Error(f.state).value
    ensures r.(presentedError := f.presentedError) == f
  {
    f.(presentedError := LiveError(f.state))
  }

  /** `showError(m)`: presents exactly `m`, whatever the field's validity. */
  function ShowError(f: Field, message: string): (r: Field)
    ensures Error(r) == message
    ensures r.(presentedError := f.presentedError) == f
  {
    f.(presentedError := message)
  }

  /** `reset()`: the initial value again, and no error presented. */
  function Reset(f: Field): (r: Field)
    ensures Value(r) == f.state.initialValue && !IsDirty(r)
    ensures r.presentedError == ""
    ensures r.state == FieldStates.Reset(f.state)
    ensures r.hint == f.hint && r.kind == f.kind
  {
    f.(state := FieldStates.Reset(f.state), presentedError := "")
  }

  /** `setValue(v)`: changes the value and leaves the presented error alone. */
  function SetValue(f: Field, v: JsValue): (r: Field)
    ensures Value(r) == v
    ensures r.state == FieldStates.SetValue(f.state, v)
    ensures r.presentedError == f.presentedError && r.hint == f.hint && r.kind == f.kind
  {
    f.(state := FieldStates.SetValue(f.state, v))
  }

  predicate IsAttached(f: Field) { f.state.parentForm.Some? }

  /** The field as a successful attachment to `form` leaves it. */
  function Attached(f: Field, form: FormId): Field {
    f.(state := f.state.(parentForm := Some(form)))
  }

  /** `attachToForm(form)`: forwards to the state, so a second call throws. */
  function AttachToForm(f: Field, form: FormId): (r: Result<Field, FieldStates.AttachError>)
    ensures r.Success? <==> !IsAttached(f)
    ensures r.Success? ==> r.value == Attached(f, form) && IsAttached(r.value)
    ensures r.Failure? ==> r.error == FieldStates.AlreadyAttached(Label(f))
  {
    match FieldStates.AttachToForm(f.state, form)
    case Success(s) => Success(f.(state := s))
    case Failure(e) => Failure(e)
  }

  /** Syncing twice in a row presents the same error as syncing once. */
  lemma SyncErrorIdempotent(f: Field)
    ensures SyncError(SyncError(f)) == SyncError(f)
  {
  }

  /** A failing `invalid('')` validator makes the field invalid while syncing presents ''. */
  lemma InvalidWithEmptyMessage(f: Field)
    requires |f.state.validators| > 0
    requires f.state.validators[0](f.state.value, f.state.parentForm, Some(f.state.fieldLabel)) == Invalid("")
    ensures !IsValid(f)
    ensures SyncError(f).presentedError == ""
  {
    assert FieldStates.FailsFirstAt(FieldStates.Results(f.state), 0);
  }
}

=== FILE: field_state.dfy ===
/** FieldState: a field's current, default and initial value, its validators
    and its one-time attachment to a form. */
module FieldStates {
  import opened Wrappers
  import opened JsValues
  import opened Validators

  /** Constructor parameters; None stands for a property left out. */
  datatype FieldStateParams = FieldStateParams(
    fieldLabel: Option<string>,
    defaultValue: Option<JsValue>,
    value: Option<JsValue>,
    validators: Option<seq<Validator>>,
    disabled: Option<bool>)

  datatype FieldState = FieldState(
    fieldLabel: string,
    isDisabled: bool,
    defaultValue: JsValue,
    value: JsValue,
    initialValue: JsValue,
    validators: seq<Validator>,
    parentForm: Option<FormId>)

  /** The error thrown by a second attachment. */
  datatype AttachError = AlreadyAttached(fieldLabel: string)

  const AttachMessageHead: string := "Tried to re-attach a field with label \""
  const AttachMessageTail: string := "\". Fields can only be attached to a Form instance once."

  /** The error's message: the label, quoted, between a fixed head and tail,
      so the label can be read back from it. */
  function AttachErrorMessage(e: AttachError): (m: string)
    ensures |m| == |AttachMessageHead| + |e.fieldLabel| + |AttachMessageTail|
    ensures m[..|AttachMessageHead|] == AttachMessageHead
    ensures m[|AttachMessageHead|..|AttachMessageHead| + |e.fieldLabel|] == e.fieldLabel
    ensures m[|AttachMessageHead| + |e.fieldLabel|..] == AttachMessageTail
  {
    AttachMessageHead + e.fieldLabel + AttachMessageTail
  }

  /** `new FieldState(params)`: label '', no validators and enabled unless given;
      the value defaults to the default value and becomes the initial value. */
  function New(p: FieldStateParams): (s: FieldState)
    ensures s.fieldLabel == p.fieldLabel.GetOr("")
    ensures s.isDisabled <==> p.disabled == Some(true)
    ensures s.defaultValue == OrDefault(p.defaultValue, Undefined)
    ensures s.value == OrDefault(p.value, s.defaultValue)
    ensures s.initialValue == s.value
    ensures s.validators == p.validators.GetOr([])
    ensures s.parentForm.None?
    ensures !IsDirty(s)
  {
    var defaultValue := OrDefault(p.defaultValue, Undefined);
    var value := OrDefault(p.value, defaultValue);
    FieldState(
      p.fieldLabel.GetOr(""), p.disabled.GetOr(false), defaultValue, value, value,
      p.validators.GetOr([]), None)
  }

  /** Every validator applied to (value, parent form, label), in registration order. */
  function Results(s: FieldState): (rs: seq<ValidationResult>)
    ensures |rs| == |s.validators|
    ensures forall i :: 0 <= i < |rs| ==> rs[i] == s.validators[i](s.value, s.parentForm, Some(s.fieldLabel))
  {
    seq(|s.validators|, i requires 0 <= i < |s.validators| => s.validators[i](s.value, s.parentForm, Some(s.fieldLabel)))
  }

  /** `i` is the first failing result. */
  ghost predicate FailsFirstAt(rs: seq<ValidationResult>, i: int) {
    0 <= i < |rs| && !rs[i].isValid && forall j :: 0 <= j < i ==> rs[j].isValid
  }

  /** The search behind `results.find(r => !r.isValid)`, from position `from`. */
  function FirstFailureFrom(rs: seq<ValidationResult>, from: nat): (r: Option<nat>)
    requires from <= |rs|
    ensures r.Some? ==> from <= r.value < |rs| && !rs[r.value].isValid
    ensures r.Some? ==> forall j :: from <= j < r.value ==> rs[j].isValid
    ensures r.None? <==> forall j :: from <= j < |rs| ==> rs[j].isValid
    decreases |rs| - from
  {
    if from == |rs| then None
    else if !rs[from].isValid then Some(from)
    else FirstFailureFrom(rs, from + 1)
  }

  /** `failedValidationResult`: the first failing result in registration order. */
  function FirstFailure(rs: seq<ValidationResult>): (r: Option<ValidationResult>)
    ensures r.None? <==> forall i :: 0 <= i < |rs| ==> rs[i].isValid
    ensures forall i :: FailsFirstAt(rs, i) ==> r == Some(rs[i])
  {
    match FirstFailureFrom(rs, 0)
    case None => None
    case Some(i) => Some(rs[i])
  }

  /** `isValid`: no validator fails; with no validators, always true. */
  predicate IsValid(s: FieldState)
    ensures IsValid(s) <==> forall i :: 0 <= i < |s.validators| ==>
      s.validators[i](s.value, s.parentForm, Some(s.fieldLabel)).isValid
  {
    FirstFailure(Results(s)).None?
  }

  /** `isDirty`: the value is not `===` to the initial value. */
  predicate IsDirty(s: FieldState)
    ensures s.value == s.initialValue ==> !IsDirty(s)
    ensures IsPrimitive(s.value) ==> (IsDirty(s) <==> s.value != s.initialValue)
    ensures s.value.Arr? && s.initialValue.Arr? ==> (IsDirty(s) <==> s.value.ref != s.initialValue.ref)
  {
    !StrictEquals(s.value, s.initialValue)
  }

  /** `error`: the message of the first failing validator, absent when valid. */
  function Error(s: FieldState): (e: Option<string>)
    ensures e.None? <==> IsValid(s)
    ensures forall i :: FailsFirstAt(Results(s), i) ==> e == Some(Results(s)[i].error)
  {
    match FirstFailure(Results(s))
    case None => None
    case Some(r) => Some(r.error)
  }

  /** `setValue(v)`: replaces the value and nothing else. */
  function SetValue(s: FieldState, v: JsValue): (r: FieldState)
    ensures r.value == v
    ensures r.(value := s.value) == s
  {
    s.(value := v)
  }

  /** `clear()`: back to the default value; dirty iff the default is not the initial value. */
  function Clear(s: FieldState): (r: FieldState)
    ensures r.value == s.defaultValue
    ensures r.(value := s.value) == s
    ensures IsDirty(r) <==> !StrictEquals(s.defaultValue, s.initialValue)
  {
    s.(value := s.defaultValue)
  }

  /** `reset()`: back to the initial value, so the state is clean. */
  function Reset(s: FieldState): (r: FieldState)
    ensures r.value == s.initialValue
    ensures r.(value := s.value) == s
    ensures !IsDirty(r)
  {
    s.(value := s.initialValue)
  }

  /** `attachToForm(form)`: records the parent the first time; throws
      AlreadyAttached once a parent is set, whatever form is passed. */
  function AttachToForm(s: FieldState, form: FormId): (r: Result<FieldState, AttachError>)
    ensures r.Success? <==> s.parentForm.None?
    ensures r.Success? ==> r.value.parentForm == Some(form) && r.value.(parentForm := None) == s
    ensures r.Failure? ==> r.error == AlreadyAttached(s.fieldLabel)
  {
    if s.parentForm.Some? then Failure(AlreadyAttached(s.fieldLabel))
    else Success(s.(parentForm := Some(form)))
  }

  /** A fresh state is not dirty; setting any value and then the initial one
      again makes it clean; a value not `===` to the initial one makes it dirty. */
  lemma DirtyIffDiffers(s: FieldState, v: JsValue)
    ensures IsDirty(SetValue(s, v)) <==> !StrictEquals(v, s.initialValue)
    ensures !IsDirty(SetValue(SetValue(s, v), s.initialValue))
  {
  }

  /** Attach-once: after a successful attachment every later one throws and
      the stored parent stays the first form. */
  lemma SecondAttachFails(s: FieldState, first: FormId, second: FormId)
    requires s.parentForm.None?
    ensures AttachToForm(s, first).Success?
    ensures AttachToForm(AttachToForm(s, first).value, second) == Failure(AlreadyAttached(s.fieldLabel))
    ensures AttachToForm(s, first).value.parentForm == Some(first)
  {
  }

  /** With no validators a state is valid and reports no error. */
  lemma NoValidatorsNoError(s: FieldState)
    requires |s.validators| == 0
    ensures IsValid(s) && Error(s) == None
  {
  }
}

=== FILE: form.dfy ===
/** Form: a keyed collection of fields with derived views and a two-phase
    submit (BeginSubmit, then FinishSubmit when the callback settles). */
module Forms {
  import opened Wrappers
  import opened JsValues
  import opened Validators
  import opened Fields
  import FieldStates
  import Deprecation

  datatype Form = Form(id: FormId, fields: map<string, Field>, isSubmitting: bool)

  /** What construction throws: the field at position `at` of the enumeration
      was already attached; `fields` are the fields as the throw leaves them,
      those enumerated before it now attached to the new form. */
  datatype ConstructionError = ConstructionError(at: nat, cause: FieldStates.AttachError, fields: map<string, Field>)

  ghost predicate Distinct(keys: seq<string>) {
    forall i, j :: 0 <= i < j < |keys| ==> keys[i] != keys[j]
  }

  /** `keys` lists the own keys of the `fields` object in iteration order. */
  ghost predicate EnumerationOf(keys: seq<string>, fields: map<string, Field>) {
    Distinct(keys) && forall k :: k in fields <==> k in keys
  }

  /** `fields` with the fields under `ks` attached to form `id`. */
  function AttachAll(fields: map<string, Field>, ks: seq<string>, id: FormId): map<string, Field> {
    map k | k in fields :: if k in ks then Attached(fields[k], id) else fields[k]
  }

  lemma AttachAllStep(fields: map<string, Field>, keys: seq<string>, i: nat, end: nat, id: FormId)
    requires i < end <= |keys| && Distinct(keys)
    requires forall j :: 0 <= j < |keys| ==> keys[j] in fields
    ensures AttachAll(fields[keys[i] := Attached(fields[keys[i]], id)], keys[i + 1..end], id)
         == AttachAll(fields, keys[i..end], id)
  {
    assert keys[i..end] == [keys[i]] + keys[i + 1..end];
    assert keys[i] !in keys[i + 1..end] by {
      var rest := keys[i + 1..end];
      forall m | 0 <= m < |rest| ensures rest[m] != keys[i] {
        assert rest[m] == keys[i + 1 + m];
      }
    }
  }

  /** `attachFields()` from position `i` on: attaches each field in turn and
      stops at the first one that throws. */
  function AttachFrom(keys: seq<string>, i: nat, fields: map<string, Field>, id: FormId): (r: Result<map<string, Field>, ConstructionError>)
    requires i <= |keys| && Distinct(keys)
    requires forall j :: 0 <= j < |keys| ==> keys[j] in fields
    ensures r.Success? <==> forall j :: i <= j < |keys| ==> !IsAttached(fields[keys[j]])
    ensures r.Success? ==> r.value == AttachAll(fields, keys[i..], id)
    ensures r.Failure? ==> i <= r.error.at < |keys| && IsAttached(fields[keys[r.error.at]])
    ensures r.Failure? ==> forall j :: i <= j < r.error.at ==> !IsAttached(fields[keys[j]])
    ensures r.Failure? ==> r.error.cause == FieldStates.AlreadyAttached(Label(fields[keys[r.error.at]]))
    ensures r.Failure? ==> r.error.fields == AttachAll(fields, keys[i..r.error.at], id)
    decreases |keys| - i
  {
    if i == |keys| then
      assert AttachAll(fields, keys[i..], id) == fields;
      Success(fields)
    else
      match AttachToForm(fields[keys[i]], id)
      case Failure(e) =>
        assert AttachAll(fields, keys[i..i], id) == fields;
        Failure(ConstructionError(i, e, fields))
      case Success(f) =>
        var r := AttachFrom(keys, i + 1, fields[keys[i] := f], id);
        if r.Success? then
          AttachAllStep(fields, keys, i, |keys|, id);
          r
        else
          AttachAllStep(fields, keys, i, r.error.at, id);
          r
  }

  /** `new Form({ fields })`: attaches every field, in iteration order, to the
      new form. It throws iff some field is already attached. */
  function New(id: FormId, keys: seq<string>, fields: map<string, Field>): (r: Result<Form, ConstructionError>)
    requires EnumerationOf(keys, fields)
    ensures r.Success? <==> forall k :: k in fields ==> !IsAttached(fields[k])
    ensures r.Success? ==> r.value.id == id && !r.value.isSubmitting
    ensures r.Success? ==> r.value.fields.Keys == fields.Keys
    ensures r.Success? ==> forall k :: k in fields ==> r.value.fields[k] == Attached(fields[k], id)
    ensures r.Failure? ==> r.error.at < |keys| && IsAttached(fields[keys[r.error.at]])
    ensures r.Failure? ==> forall j :: 0 <= j < r.error.at ==> !IsAttached(fields[keys[j]])
    ensures r.Failure? ==> r.error.cause == FieldStates.AlreadyAttached(Label(fields[keys[r.error.at]]))
    ensures r.Failure? ==> r.error.fields == AttachAll(fields, keys[..r.error.at], id)
  {
    assert keys[0..] == keys;
    match AttachFrom(keys, 0, fields, id)
    case Success(attached) => Success(Form(id, attached, false))
    case Failure(e) =>
      assert keys[0..e.at] == keys[..e.at];
      Failure(e)
  }

  /** The fields of a constructed form are attached, so handing them to a
      second form makes that construction throw. */
  lemma FieldsJoinOneFormOnly(id: FormId, other: FormId, keys: seq<string>, fields: map<string, Field>)
    requires EnumerationOf(keys, fields) && |keys| > 0
    requires New(id, keys, fields).Success?
    ensures New(other, keys, New(id, keys, fields).value.fields).Failure?
  {
    var attached := New(id, keys, fields).value.fields;
    assert keys[0] in attached && IsAttached(attached[keys[0]]);
  }

  /** `valuesOf(fields)`: each key mapped to its field's current value. */
  function ValuesOf(fields: map<string, Field>): (r: map<string, JsValue>)
    ensures r.Keys == fields.Keys
    ensures forall k :: k in r ==> r[k] == Value(fields[k])
  {
    map k | k in fields :: Value(fields[k])
  }

  /** `values`: every field's current value, disabled fields included. */
  function Values(form: Form): (r: map<string, JsValue>)
    ensures r.Keys == form.fields.Keys
    ensures forall k :: k in r ==> r[k] == Value(form.fields[k])
  {
    ValuesOf(form.fields)
  }

  /** `pickBy(fields, keep)`. */
  function PickFieldsBy(fields: map<string, Field>, keep: Field -> bool): (r: map<string, Field>)
    ensures forall k :: k in r <==> k in fields && keep(fields[k])
    ensures forall k :: k in r ==> r[k] == fields[k]
  {
    map k | k in fields && keep(fields[k]) :: fields[k]
  }

  /** `dirtyFields`: the dirty fields, disabled or not, under their keys. */
  function DirtyFields(form: Form): (r: map<string, Field>)
    ensures forall k :: k in r <==> k in form.fields && Fields.IsDirty(form.fields[k])
    ensures forall k :: k in r ==> r[k] == form.fields[k]
  {
    PickFieldsBy(form.fields, f => Fields.IsDirty(f))
  }

  /** `enabledFields`: the fields that are not disabled, under their keys. */
  function EnabledFields(form: Form): (r: map<string, Field>)
    ensures forall k :: k in r <==> k in form.fields && !IsDisabled(form.fields[k])
    ensures forall k :: k in r ==> r[k] == form.fields[k]
  {
    PickFieldsBy(form.fields, f => !IsDisabled(f))
  }

  /** `dirtyValues`: `values` restricted to the dirty fields. */
  function DirtyValues(form: Form): (r: map<string, JsValue>)
    ensures forall k :: k in r <==> k in form.fields && Fields.IsDirty(form.fields[k])
    ensures forall k :: k in r ==> r[k] == Values(form)[k]
  {
    ValuesOf(DirtyFields(form))
  }

  /** `isValid`: every enabled field is valid; disabled fields are ignored. */
  predicate IsValid(form: Form)
    ensures IsValid(form) <==>
      forall k :: k in form.fields && !IsDisabled(form.fields[k]) ==> Fields.IsValid(form.fields[k])
  {
    var enabled := EnabledFields(form);
    forall k :: k in enabled ==> Fields.IsValid(enabled[k])
  }

  /** `isDirty`: some field, disabled or not, is dirty. */
  predicate IsDirty(form: Form)
    ensures IsDirty(form) <==> DirtyFields(form).Keys != {}
  {
    exists k :: k in form.fields && Fields.IsDirty(form.fields[k])
  }

  /** `isReadyToSubmit`: exactly the forms on which `submit` calls `onSubmit`
      and that have something to submit. */
  predicate IsReadyToSubmit(form: Form)
    ensures IsReadyToSubmit(form) <==> BeginSubmit(form).invoked && IsDirty(form)
    ensures !IsDirty(form) ==> !IsReadyToSubmit(form)
  {
    IsValid(form) && IsDirty(form) && !form.isSubmitting
  }

  /** `field(key)`: the field under `key`, absent for an unknown key. */
  function FieldAt(form: Form, key: string): (r: Option<Field>)
    ensures r.Some? <==> key in form.fields
    ensures r.Some? ==> r.value == form.fields[key]
  {
    if key in form.fields then Some(form.fields[key]) else None
  }

  /** The deprecated `select(key)`: the same field as `field(key)`, plus the
      warning it prints, which names `field` as the alternative and the `Form`
      reference page as the docs. */
  function Select(form: Form, key: string): (r: (Option<Field>, string))
    ensures r.0.Some? <==> key in form.fields
    ensures r.0.Some? ==> r.0.value == form.fields[key]
    ensures r.1 == Deprecation.Warning("Form", "select", Some("field"), Some("/reference/Form.md#field"))
  {
    (FieldAt(form, key), Deprecation.Warning("Form", "select", Some("field"), Some("/reference/Form.md#field")))
  }

  /** `eachField(action)`: applies `action` to every field. */
  function EachField(form: Form, action: Field -> Field): (r: Form)
    ensures r.id == form.id && r.isSubmitting == form.isSubmitting
    ensures r.fields.Keys == form.fields.Keys
    ensures forall k :: k in r.fields ==> r.fields[k] == action(form.fields[k])
  {
    form.(fields := map k | k in form.fields :: action(form.fields[k]))
  }

  /** The error sync `submit` runs first: every field presents its live error. */
  function SyncFieldErrors(form: Form): (r: Form)
    ensures r.id == form.id && r.isSubmitting == form.isSubmitting
    ensures r.fields.Keys == form.fields.Keys
    ensures forall k :: k in r.fields ==> r.fields[k] == SyncError(form.fields[k])
    ensures forall k :: k in r.fields ==> Error(r.fields[k]) == LiveError(form.fields[k].state)
    ensures IsValid(r) == IsValid(form) && IsDirty(r) == IsDirty(form)
  {
    EachField(form, SyncError)
  }

  /** `reset()`: every field back to its initial value with no error shown. */
  function Reset(form: Form): (r: Form)
    ensures Values(r) == map k | k in form.fields :: form.fields[k].state.initialValue
    ensures !IsDirty(r)
    ensures forall k :: k in r.fields ==> Error(r.fields[k]) == ""
    ensures r.id == form.id && r.isSubmitting == form.isSubmitting
    ensures r.fields.Keys == form.fields.Keys
    ensures forall k :: k in r.fields ==>
      r.fields[k] == form.fields[k].(state := form.fields[k].state.(value := form.fields[k].state.initialValue), presentedError := "")
  {
    EachField(form, Fields.Reset)
  }

  /** The state-level clear applied to one field. */
  function ClearValue(f: Field): Field {
    f.(state := FieldStates.Clear(f.state))
  }

  /** `clear()` as the library evidently intends it: every field back to its
      default value. */
  function Clear(form: Form): (r: Form)
    ensures Values(r) == map k | k in form.fields :: form.fields[k].state.defaultValue
    ensures forall k :: k in r.fields ==> r.fields[k].state.initialValue == form.fields[k].state.initialValue
    ensures r.id == form.id && r.isSubmitting == form.isSubmitting
    ensures r.fields.Keys == form.fields.Keys
    ensures forall k :: k in r.fields ==>
      r.fields[k] == form.fields[k].(state := form.fields[k].state.(value := form.fields[k].state.defaultValue))
  {
    EachField(form, ClearValue)
  }

  datatype TypeError = NotAFunction(name: string)

  /** `clear()` exactly as written: it calls `field.clear()`, which no field
      class defines, so it throws on the first field of a non-empty form. */
  function ClearAsWritten(form: Form): (r: Result<Form, TypeError>)
    ensures r.Failure? <==> |form.fields| > 0
    ensures r.Success? ==> r.value == form
  {
    if |form.fields| == 0 then Success(form) else Failure(NotAFunction("clear"))
  }

  /** As written, clearing a form with a field throws instead of restoring defaults. */
  lemma ClearAsWrittenThrows(form: Form, k: string)
    requires k in form.fields
    ensures ClearAsWritten(form) == Failure(NotAFunction("clear"))
    ensures Value(Clear(form).fields[k]) == form.fields[k].state.defaultValue
  {
    assert |form.fields| > 0;
  }

  /** `showErrors(errors)`: shows each message on the field with its key;
      unknown keys are skipped. */
  function ShowErrors(form: Form, errors: map<string, string>): (r: Form)
    ensures r.id == form.id && r.isSubmitting == form.isSubmitting
    ensures r.fields.Keys == form.fields.Keys
    ensures forall k :: k in form.fields && k in errors ==> r.fields[k] == ShowError(form.fields[k], errors[k])
    ensures forall k :: k in form.fields && k !in errors ==> r.fields[k] == form.fields[k]
  {
    form.(fields := map k | k in form.fields :: if k in errors then ShowError(form.fields[k], errors[k]) else form.fields[k])
  }

  /** Messages for unknown keys have no effect. */
  lemma ShowErrorsIgnoresUnknownKeys(form: Form, errors: map<string, string>)
    ensures ShowErrors(form, errors) == ShowErrors(form, map k | k in errors && k in form.fields :: errors[k])
  {
  }

  /** The first half of `submit()`: sync every field's error, then start the
      callback (with the synced form) only if the form is valid and no submit
      is in flight; otherwise `submit()` returns an already resolved promise. */
  datatype SubmitStart = SubmitStart(form: Form, invoked: bool)

  function BeginSubmit(form: Form): (r: SubmitStart)
    ensures r.form.id == form.id && r.form.fields.Keys == form.fields.Keys
    ensures forall k :: k in form.fields ==> r.form.fields[k] == SyncError(form.fields[k])
    ensures r.invoked <==> IsValid(form) && !form.isSubmitting
    ensures r.form.isSubmitting <==> form.isSubmitting || r.invoked
  {
    var synced := SyncFieldErrors(form);
    assert IsValid(synced) == IsValid(form) by {
      forall k | k in form.fields ensures Fields.IsValid(synced.fields[k]) == Fields.IsValid(form.fields[k]) {
        assert synced.fields[k].state == form.fields[k].state;
      }
    }
    if !IsValid(synced) || synced.isSubmitting then SubmitStart(synced, false)
    else SubmitStart(synced.(isSubmitting := true), true)
  }

  /** How the callback's promise settled. */
  datatype Outcome = Resolved(value: JsValue) | Rejected(reason: JsValue)

  datatype Settled = Settled(form: Form, outcome: Outcome)

  /** The second half: when the callback settles, resolved or rejected, the
      submitting flag is cleared and the outcome is passed on untouched. */
  function FinishSubmit(form: Form, outcome: Outcome): (r: Settled)
    ensures !r.form.isSubmitting
    ensures r.form.(isSubmitting := form.isSubmitting) == form
    ensures r.outcome == outcome
  {
    Settled(form.(isSubmitting := false), outcome)
  }

  /** While a submit is in flight a second one does not invoke the callback,
      though it still syncs the errors; the form is not ready to submit. */
  lemma SubmitAtMostOnce(form: Form)
    requires BeginSubmit(form).invoked
    ensures !BeginSubmit(BeginSubmit(form).form).invoked
    ensures BeginSubmit(BeginSubmit(form).form).form.isSubmitting
    ensures !IsReadyToSubmit(BeginSubmit(form).form)
  {
  }

  /** An invalid form never invokes the callback, but every error becomes visible. */
  lemma InvalidFormShowsErrors(form: Form, k: string)
    requires !IsValid(form) && k in form.fields
    ensures !BeginSubmit(form).invoked
    ensures Error(BeginSubmit(form).form.fields[k]) == LiveError(form.fields[k].state)
  {
  }

  /** After the callback settles the form is idle again, so a later submit of a
      still-valid form invokes the callback once more. */
  lemma SubmitCycle(form: Form, outcome: Outcome)
    requires BeginSubmit(form).invoked
    ensures var settled := FinishSubmit(BeginSubmit(form).form, outcome);
      !settled.form.isSubmitting && settled.outcome == outcome &&
      (IsValid(settled.form) ==> BeginSubmit(settled.form).invoked)
  {
  }

  /** Disabled fields never block validity: swapping a disabled field for any
      other disabled field leaves `isValid` as it was. */
  lemma DisabledFieldsIgnored(form: Form, k: string, g: Field)
    requires k in form.fields && IsDisabled(form.fields[k]) && IsDisabled(g)
    ensures IsValid(form.(fields := form.fields[k := g])) == IsValid(form)
  {
    var form' := form.(fields := form.fields[k := g]);
    if IsValid(form) {
      forall j | j in form'.fields && !IsDisabled(form'.fields[j]) ensures Fields.IsValid(form'.fields[j]) {
        assert j != k && form'.fields[j] == form.fields[j];
      }
    }
    if IsValid(form') {
      forall j | j in form.fields && !IsDisabled(form.fields[j]) ensures Fields.IsValid(form.fields[j]) {
        assert j != k && form'.fields[j] == form.fields[j];
      }
    }
  }

  /** The form is dirty iff `dirtyValues` is not empty. */
  lemma DirtyIffDirtyValues(form: Form)
    ensures IsDirty(form) <==> DirtyValues(form) != map[]
  {
    if IsDirty(form) {
      var k :| k in form.fields && Fields.IsDirty(form.fields[k]);
      assert k in DirtyValues(form);
    }
  }
}

=== FILE: input.dfy ===
/** Input: a field with focus state whose error display is governed by its
    `showErrors` mode. */
module Inputs {
  import opened Wrappers
  import opened JsValues
  import opened Fields
  import FieldStates

  /** `new Input(params)`: unfocused, placeholder '' and mode onBlur unless given. */
  function New(p: FieldParams, placeholder: Option<string>, showErrors: Option<ErrorDisplay>): (f: Field)
    ensures f.kind.Input? && !f.kind.isFocused
    ensures f.kind.placeholder == placeholder.GetOr("")
    ensures f.kind.showErrors == showErrors.GetOr(OnBlur)
    ensures f.state == FieldStates.New(p.state) && f.presentedError == "" && f.hint == p.hint.GetOr("")
  {
    Fields.New(p, Input(placeholder.GetOr(""), showErrors.GetOr(OnBlur), false))
  }

  predicate IsFocused(f: Field)
    requires f.kind.Input?
  {
    f.kind.isFocused
  }

  /** `focus()`: focused, nothing else changes. */
  function Focus(f: Field): (r: Field)
    requires f.kind.Input?
    ensures r.kind.Input? && IsFocused(r)
    ensures r.(kind := f.kind) == f
    ensures r.kind.(isFocused := f.kind.isFocused) == f.kind
  {
    f.(kind := f.kind.(isFocused := true))
  }

  /** `write(v)` as the library evidently intends it: focuses, sets the value,
      and syncs the error when the new value is valid or the mode is onWrite. */
  function Write(f: Field, v: JsValue): (r: Field)
    requires f.kind.Input?
    ensures r.kind.Input? && IsFocused(r)
    ensures r.kind.showErrors == f.kind.showErrors && r.kind.placeholder == f.kind.placeholder
    ensures Value(r) == v && r.state == FieldStates.SetValue(f.state, v)
    ensures r.hint == f.hint
    ensures IsValid(r) || f.kind.showErrors == OnWrite ==> Error(r) == LiveError(r.state)
    ensures !IsValid(r) && f.kind.showErrors != OnWrite ==> Error(r) == Error(f)
  {
    var focused := SetValue(Focus(f), v);
    if IsValid(focused) || focused.kind.showErrors == OnWrite then SyncError(focused) else focused
  }

  /** `write(v)` exactly as written: it assigns `this._value`, a property the
      field does not read, so the value stays the same and the validity check
      sees the old value. */
  function WriteAsWritten(f: Field, v: JsValue): (r: Field)
    requires f.kind.Input?
    ensures r.kind.Input? && IsFocused(r)
    ensures Value(r) == Value(f) && r.state == f.state
    ensures r.hint == f.hint && r.kind.placeholder == f.kind.placeholder && r.kind.showErrors == f.kind.showErrors
    ensures IsValid(f) || f.kind.showErrors == OnWrite ==> Error(r) == LiveError(f.state)
    ensures !IsValid(f) && f.kind.showErrors != OnWrite ==> Error(r) == Error(f)
  {
    var focused := Focus(f);
    if IsValid(focused) || focused.kind.showErrors == OnWrite then SyncError(focused) else focused
  }

  /** `blur()`: unfocused; syncs the error only in onBlur mode. */
  function Blur(f: Field): (r: Field)
    requires f.kind.Input?
    ensures r.kind.Input? && !IsFocused(r)
    ensures r.kind.(isFocused := f.kind.isFocused) == f.kind
    ensures r.state == f.state && r.hint == f.hint
    ensures f.kind.showErrors == OnBlur ==> Error(r) == LiveError(f.state)
    ensures f.kind.showErrors != OnBlur ==> Error(r) == Error(f)
  {
    var blurred := f.(kind := f.kind.(isFocused := false));
    if blurred.kind.showErrors == OnBlur then SyncError(blurred) else blurred
  }

  /** Focusing twice is focusing once. */
  lemma FocusIdempotent(f: Field)
    requires f.kind.Input?
    ensures Focus(Focus(f)) == Focus(f)
  {
  }

  /** A valid write clears whatever error was shown, in every mode. */
  lemma ValidWriteClearsError(f: Field, v: JsValue)
    requires f.kind.Input?
    requires FieldStates.IsValid(FieldStates.SetValue(f.state, v))
    ensures Error(Write(f, v)) == ""
  {
  }

  /** In onWrite mode an invalid write shows the live error at once. */
  lemma OnWriteShowsError(f: Field, v: JsValue)
    requires f.kind.Input? && f.kind.showErrors == OnWrite
    requires !FieldStates.IsValid(FieldStates.SetValue(f.state, v))
    ensures Error(Write(f, v)) == FieldStates.Error(FieldStates.SetValue(f.state, v)).value
  {
  }

  /** In onBlur mode an invalid write shows nothing new until the blur. */
  lemma OnBlurShowsErrorOnBlur(f: Field, v: JsValue)
    requires f.kind.Input? && f.kind.showErrors == OnBlur
    requires !FieldStates.IsValid(FieldStates.SetValue(f.state, v))
    ensures Error(Write(f, v)) == Error(f)
    ensures Error(Blur(Write(f, v))) == FieldStates.Error(FieldStates.SetValue(f.state, v)).value
  {
  }

  /** In onSubmit mode neither an invalid write nor a blur changes the presented error. */
  lemma OnSubmitKeepsError(f: Field, v: JsValue)
    requires f.kind.Input? && f.kind.showErrors == OnSubmit
    requires !FieldStates.IsValid(FieldStates.SetValue(f.state, v))
    ensures Error(Write(f, v)) == Error(f)
    ensures Error(Blur(Write(f, v))) == Error(f)
    ensures Error(Blur(f)) == Error(f)
  {
  }

  /** As written, `write` does not change the value: writing 'new value' into
      an input holding 'initial value' leaves 'initial value'. */
  lemma WriteAsWrittenKeepsValue()
    ensures var f := New(FieldParams(None, FieldStates.FieldStateParams(None, Some(Str("default value")), Some(Str("initial value")), None, None)), None, None);
      Value(WriteAsWritten(f, Str("new value"))) == Str("initial value") != Str("new value")
    ensures var f := New(FieldParams(None, FieldStates.FieldStateParams(None, Some(Str("default value")), Some(Str("initial value")), None, None)), None, None);
      Value(Write(f, Str("new value"))) == Str("new value")
  {
  }
}

=== FILE: js_values.dfy ===
/** The JavaScript values a field can hold, with the two JavaScript notions the
    library relies on: strict equality (`===`) and truthiness. */
module JsValues {
  import opened Wrappers

  /** Identity of a heap object (an array, a Date, any other object). An array
      value pairs its identity with the elements it holds when observed; the
      model has no heap, so two observations of one identity are not tied to
      each other and in-place mutation is not represented. */
  type Ref = nat

  /** Numbers are integers here; arrays and other objects carry their identity,
      and an array also carries its current elements. */
  datatype JsValue =
    | Undefined
    | Null
    | Bool(b: bool)
    | Num(n: int)
    | Str(s: string)
    | Arr(ref: Ref, elems: seq<JsValue>)
    | Obj(ref: Ref)

  /** Values compared by content under `===`. */
  predicate IsPrimitive(v: JsValue) {
    !v.Arr? && !v.Obj?
  }

  /** `a === b`: primitives by content, arrays and objects by identity only. */
  function StrictEquals(a: JsValue, b: JsValue): (r: bool)
    ensures a == b ==> r
    ensures IsPrimitive(a) || IsPrimitive(b) ==> (r <==> a == b)
    ensures a.Arr? && b.Arr? ==> (r <==> a.ref == b.ref)
    ensures a.Obj? && b.Obj? ==> (r <==> a.ref == b.ref)
    ensures a.Arr? && b.Obj? ==> !r
    ensures a.Obj? && b.Arr? ==> !r
  {
    match (a, b)
    case (Arr(x, _), Arr(y, _)) => x == y
    case (Obj(x), Obj(y)) => x == y
    case _ => a == b
  }

  /** Two arrays with the same elements but different identities are not `===`. */
  lemma DistinctArraysDiffer(x: Ref, y: Ref, elems: seq<JsValue>)
    requires x != y
    ensures !StrictEquals(Arr(x, elems), Arr(y, elems))
  {
  }

  /** `===` is an equivalence relation on this value space. */
  lemma StrictEqualsIsEquivalence(a: JsValue, b: JsValue, c: JsValue)
    ensures StrictEquals(a, a)
    ensures StrictEquals(a, b) == StrictEquals(b, a)
    ensures StrictEquals(a, b) && StrictEquals(b, c) ==> StrictEquals(a, c)
  {
  }

  /** JavaScript ToBoolean (`!!v`): undefined, null, false, 0 and '' are falsy;
      every array and object, even an empty array, is truthy. */
  predicate Truthy(v: JsValue)
    ensures !IsPrimitive(v) ==> Truthy(v)
    ensures IsPrimitive(v) ==> (!Truthy(v) <==> v in {Undefined, Null, Bool(false), Num(0), Str("")})
  {
    match v
    case Undefined => false
    case Null => false
    case Bool(b) => b
    case Num(n) => n != 0
    case Str(s) => s != ""
    case Arr(_, _) => true
    case Obj(_) => true
  }

  /** The `length` property where the value has one (strings and arrays). */
  function JsLength(v: JsValue): (r: Option<nat>)
    ensures r.Some? <==> v.Str? || v.Arr?
    ensures v.Str? ==> r == Some(|v.s|)
    ensures v.Arr? ==> r == Some(|v.elems|)
  {
    match v
    case Str(s) => Some(|s|)
    case Arr(_, elems) => Some(|elems|)
    case _ => None
  }

  /** A destructuring default: a missing or undefined argument takes the default. */
  function OrDefault(given: Option<JsValue>, default: JsValue): (r: JsValue)
    ensures r == default || (given.Some? && r == given.value)
    ensures r == Undefined ==> default == Undefined
    ensures given.Some? && given.value != Undefined ==> r == given.value
  {
    match given
    case Some(v) => if v != Undefined then v else default
    case None => default
  }
}

=== FILE: manual_field.dfy ===
/** ManualField: a field whose every change immediately presents the live error. */
module ManualFields {
  import opened JsValues
  import opened Fields
  import FieldStates

  /** `new ManualField(params)` and `manualField(params)`. */
  function New(p: FieldParams): (f: Field)
    ensures f.kind == Manual
    ensures f.state == FieldStates.New(p.state) && f.presentedError == ""
    ensures f.hint == p.hint.GetOr("")
  {
    Fields.New(p, Manual)
  }

  /** `change(v)`: sets the value, then syncs the error. */
  function Change(f: Field, v: JsValue): (r: Field)
    requires f.kind == Manual
    ensures Value(r) == v
    ensures r.state == FieldStates.SetValue(f.state, v)
    ensures IsValid(r) ==> Error(r) == ""
    ensures !IsValid(r) ==> Error(r) == FieldStates.Error(r.state).value
    ensures r.hint == f.hint && r.kind == Manual
  {
    SyncError(SetValue(f, v))
  }

  /** `set(v)`, an alias of `change`. */
  function Set(f: Field, v: JsValue): Field
    requires f.kind == Manual
  {
    Change(f, v)
  }

  /** `select(v)`, an alias of `change`. */
  function Select(f: Field, v: JsValue): Field
    requires f.kind == Manual
  {
    Change(f, v)
  }

  /** After a change the presented error is the live error of the new value,
      whatever was presented before; a valid value clears it. */
  lemma ChangePresentsLiveError(f: Field, v: JsValue, message: string)
    requires f.kind == Manual
    ensures Error(Change(ShowError(f, message), v)) == Error(Change(f, v))
    ensures IsValid(Change(f, v)) ==> Error(Change(ShowError(f, message), v)) == ""
    ensures Set(f, v) == Change(f, v) && Select(f, v) == Change(f, v)
  {
  }
}

=== FILE: strings.dfy ===
/** The string operations the validators use: `String.prototype.replace` with a
    string pattern (first occurrence only, with the `$` replacement patterns of
    GetSubstitution, section 22.1.3.18.1 of ECMAScript 2023) and
    `Number.prototype.toString` on integers. */
module Strings {
  import opened Wrappers

  /** `pat` occurs in `s` starting at index `i`. */
  ghost predicate OccursAt(s: string, pat: string, i: int) {
    0 <= i && i + |pat| <= |s| && s[i..i + |pat|] == pat
  }

  /** `i` is the leftmost occurrence of `pat` in `s`. */
  ghost predicate IsFirstOccurrence(s: string, pat: string, i: int) {
    OccursAt(s, pat, i) && forall j :: 0 <= j < i ==> !OccursAt(s, pat, j)
  }

  /** StringIndexOf: the leftmost occurrence of `pat` at or after `from`. */
  function IndexFrom(s: string, pat: string, from: nat): (r: Option<nat>)
    requires from <= |s|
    ensures r.Some? ==> from <= r.value && OccursAt(s, pat, r.value)
    ensures r.Some? ==> forall j :: from <= j < r.value ==> !OccursAt(s, pat, j)
    ensures r.None? ==> forall j :: from <= j ==> !OccursAt(s, pat, j)
    decreases |s| - from
  {
    if from + |pat| > |s| then None
    else if s[from..from + |pat|] == pat then Some(from)
    else
      assert |pat| > 0;
      IndexFrom(s, pat, from + 1)
  }

  /** The leftmost occurrence of `pat` in `s`, if any. */
  function IndexOf(s: string, pat: string): (r: Option<nat>)
    ensures r.Some? ==> IsFirstOccurrence(s, pat, r.value)
    ensures r.None? <==> forall j :: !OccursAt(s, pat, j)
  {
    IndexFrom(s, pat, 0)
  }

  /** Whether `rep` starts with one of the two-character patterns `$$`,
      `$&`, `` $` `` or `$'`. */
  predicate StartsWithPattern(rep: string) {
    |rep| >= 2 && rep[0] == '$' && rep[1] in "$&`'"
  }

  /** The text a two-character pattern `$c` stands for. */
  function PatternText(c: char, matched: string, before: string, after: string): string {
    if c == '$' then "$"
    else if c == '&' then matched
    else if c == '`' then before
    else after
  }

  /** GetSubstitution for a string pattern (no capture groups): in the
      replacement, `$$` is `$`, `$&` the matched text, `` $` `` the text before
      the match and `$'` the text after it; every other `$` is literal. */
  function Substitution(rep: string, matched: string, before: string, after: string): (r: string)
    ensures '$' !in rep ==> r == rep
    decreases |rep|
  {
    if |rep| == 0 then ""
    else if StartsWithPattern(rep) then PatternText(rep[1], matched, before, after) + Substitution(rep[2..], matched, before, after)
    else
      assert rep == [rep[0]] + rep[1..];
      [rep[0]] + Substitution(rep[1..], matched, before, after)
  }

  /** The four two-character patterns of GetSubstitution, a `$` before any
      other character, which stays literal, and a lone final `$`, also literal. */
  lemma SubstitutionPatterns(matched: string, before: string, after: string, c: char)
    requires c !in "$&`'"
    ensures Substitution("$$", matched, before, after) == "$"
    ensures Substitution("$&", matched, before, after) == matched
    ensures Substitution("$`", matched, before, after) == before
    ensures Substitution("$'", matched, before, after) == after
    ensures Substitution(['$', c], matched, before, after) == ['$', c]
    ensures Substitution("$", matched, before, after) == "$"
  {
    assert "$$"[2..] == "$&"[2..] == "$`"[2..] == "$'"[2..] == [];
    assert ['$', c][1..] == [c];
    assert [c][1..] == [];
  }


  /** Substitution works piecewise: a replacement splits into two parts that
      are substituted independently, unless the cut falls right after a `$`. */
  lemma {:induction false} SubstitutionAppend(x: string, y: string, matched: string, before: string, after: string)
    requires |x| == 0 || x[|x| - 1] != '$'
    ensures Substitution(x + y, matched, before, after) ==
      Substitution(x, matched, before, after) + Substitution(y, matched, before, after)
    decreases |x|
  {
    if |x| == 0 {
      assert x + y == y;
    } else if StartsWithPattern(x) {
      assert (x + y)[0] == '$' && (x + y)[1] == x[1];
      assert (x + y)[2..] == x[2..] + y;
      SubstitutionAppend(x[2..], y, matched, before, after);
    } else {
      assert (x + y)[0] == x[0];
      assert x[0] == '$' ==> |x| >= 2 && (x + y)[1] == x[1];
      assert (x + y)[1..] == x[1..] + y;
      SubstitutionAppend(x[1..], y, matched, before, after);
    }
  }

  /** A two-character pattern at the head is consumed as one unit: `$$&` is
      `$` followed by a literal `&`, never `$` followed by the matched text. */
  lemma SubstitutionHead(c: char, y: string, matched: string, before: string, after: string)
    requires c in "$&`'"
    ensures Substitution(['$', c] + y, matched, before, after) ==
      Substitution(['$', c], matched, before, after) + Substitution(y, matched, before, after)
  {
    assert (['$', c] + y)[2..] == y;
    assert ['$', c][2..] == [];
  }

  /** `$$&` gives `$&`: the escaped dollar, then a literal ampersand. */
  lemma EscapedDollarBeforeAmpersand(matched: string, before: string, after: string)
    ensures Substitution("$$&", matched, before, after) == "$&"
  {
    SubstitutionHead('$', "&", matched, before, after);
    SubstitutionPatterns(matched, before, after, 'x');
    assert ['$', '$'] + "&" == "$$&";
  }

  /** The occurrence of `pat` at `i` replaced by the substituted replacement. */
  function ReplaceAt(s: string, pat: string, rep: string, i: int): string
    requires OccursAt(s, pat, i)
  {
    s[..i] + Substitution(rep, pat, s[..i], s[i + |pat|..]) + s[i + |pat|..]
  }

  /** `s.replace(pat, rep)` with a string pattern: only the leftmost occurrence
      is replaced; without an occurrence `s` comes back unchanged. */
  function ReplaceFirst(s: string, pat: string, rep: string): (r: string)
    ensures (forall i :: !OccursAt(s, pat, i)) ==> r == s
    ensures forall i :: IsFirstOccurrence(s, pat, i) ==> r == ReplaceAt(s, pat, rep, i)
  {
    match IndexOf(s, pat)
    case None => s
    case Some(i) =>
      ReplaceAt(s, pat, rep, i)
  }

  /** With a `$`-free replacement, the leftmost occurrence is replaced by the
      replacement text and everything after it, later occurrences included, is kept. */
  lemma ReplaceFirstLiteral(s: string, pat: string, rep: string, i: int)
    requires '$' !in rep
    requires IsFirstOccurrence(s, pat, i)
    ensures ReplaceFirst(s, pat, rep) == s[..i] + rep + s[i + |pat|..]
  {
  }

  /** A non-empty pattern whose first character is absent from `s` never occurs in it. */
  lemma NoOccurrenceWithoutHead(s: string, pat: string)
    requires |pat| > 0 && pat[0] !in s
    ensures forall i :: !OccursAt(s, pat, i)
  {
    forall i ensures !OccursAt(s, pat, i) {
      if 0 <= i && i + |pat| <= |s| {
        assert s[i..i + |pat|][0] == s[i] != pat[0];
      }
    }
  }

  /** In `p + pat + q`, the leftmost occurrence is right after `p` when `p` does
      not contain the pattern's first character. */
  lemma FirstOccurrenceAfter(p: string, pat: string, q: string)
    requires |pat| > 0 && pat[0] !in p
    ensures IsFirstOccurrence(p + pat + q, pat, |p|)
  {
    var s := p + pat + q;
    assert s[|p|..|p| + |pat|] == pat;
    forall j | 0 <= j < |p| ensures !OccursAt(s, pat, j) {
      assert s[j] == p[j] != pat[0];
      assert j + |pat| <= |s| ==> s[j..j + |pat|][0] == s[j];
    }
  }

  /** Substituting into `p + pat + q` (with `pat[0]` not in `p`) yields `p + rep + q`. */
  lemma ReplaceInTemplate(p: string, pat: string, q: string, rep: string)
    requires |pat| > 0 && pat[0] !in p
    requires '$' !in rep
    ensures ReplaceFirst(p + pat + q, pat, rep) == p + rep + q
  {
    var s := p + pat + q;
    FirstOccurrenceAfter(p, pat, q);
    ReplaceFirstLiteral(s, pat, rep, |p|);
    assert s[..|p|] == p;
    assert s[|p| + |pat|..] == q;
  }

  /** The characters `Number.prototype.toString` writes for an integer. */
  predicate IsDigit(c: char) {
    '0' <= c <= '9'
  }

  function DigitChar(d: nat): (c: char)
    requires d < 10
    ensures IsDigit(c)
  {
    ('0' as int + d) as char
  }

  function DigitValue(c: char): (d: nat)
    requires IsDigit(c)
    ensures d < 10
  {
    c as int - '0' as int
  }

  /** Decimal digits of `n`, most significant first, without leading zeros. */
  function NatToDecimal(n: nat): (r: string)
    ensures |r| > 0
    ensures forall k :: 0 <= k < |r| ==> IsDigit(r[k])
    ensures |r| > 1 ==> r[0] != '0'
    decreases n
  {
    if n < 10 then [DigitChar(n)] else NatToDecimal(n / 10) + [DigitChar(n % 10)]
  }

  /** `n.toString()` for an integer `n`. */
  function IntToDecimal(n: int): (r: string)
    ensures '$' !in r && ':' !in r
    ensures n >= 0 ==> r == NatToDecimal(n)
    ensures n < 0 ==> r == "-" + NatToDecimal(-n)
  {
    if n < 0 then "-" + NatToDecimal(-n) else NatToDecimal(n)
  }

  /** Reading decimal digits back, the partner of NatToDecimal. */
  function ParseNat(s: string): nat
    requires forall k :: 0 <= k < |s| ==> IsDigit(s[k])
    decreases |s|
  {
    if |s| == 0 then 0 else ParseNat(s[..|s| - 1]) * 10 + DigitValue(s[|s| - 1])
  }

  function ParseInt(s: string): int
    requires |s| > 0 && (s[0] == '-' || IsDigit(s[0]))
    requires forall k :: 1 <= k < |s| ==> IsDigit(s[k])
  {
    if s[0] == '-' then 0 - ParseNat(s[1..]) else ParseNat(s)
  }

  lemma {:induction false} NatDecimalRoundTrip(n: nat)
    ensures ParseNat(NatToDecimal(n)) == n
    decreases n
  {
    if n >= 10 {
      var s := NatToDecimal(n);
      NatDecimalRoundTrip(n / 10);
      assert s[..|s| - 1] == NatToDecimal(n / 10);
    }
  }

  /** `n.toString()` denotes `n`: reading it back gives `n`, so distinct
      lengths give distinct messages. */
  lemma IntDecimalRoundTrip(n: int)
    ensures ParseInt(IntToDecimal(n)) == n
  {
    if n < 0 {
      NatDecimalRoundTrip(-n);
      assert IntToDecimal(n)[1..] == NatToDecimal(-n);
    } else {
      NatDecimalRoundTrip(n);
    }
  }
}

=== FILE: validators.dfy ===
/** Validation results, the `makeValidator` combinator and the built-in
    validator factories (`minLength`, `maxLength`, `length`, `required`). */
module Validators {
  import opened Wrappers
  import opened JsValues
  import opened Strings
  import Config

  /** Opaque handle of the form a field is attached to. */
  type FormId = nat

  datatype ValidationResult = ValidationResult(isValid: bool, error: string)

  /** `valid()`: a passing result with an empty message. */
  function Valid(): (r: ValidationResult)
    ensures r.isValid && r.error == ""
  {
    ValidationResult(true, "")
  }

  /** `invalid(message)`: a failing result carrying exactly `message`, even ''. */
  function Invalid(message: string): (r: ValidationResult)
    ensures !r.isValid && r.error == message
  {
    ValidationResult(false, message)
  }

  /** A validator sees the value, the parent form (if attached) and the label. */
  type Validator = (JsValue, Option<FormId>, Option<string>) -> ValidationResult

  /** The test `makeValidator` wraps; it is not given the label. */
  type Predicate = (JsValue, Option<FormId>) -> bool

  const LabelKey: string := ":label"
  const LengthKey: string := ":length"
  const FallbackLabel: string := "Field"

  /** `label || 'Field'`. */
  function LabelOrFallback(fieldLabel: Option<string>): (r: string)
    ensures r != ""
    ensures fieldLabel.Some? && fieldLabel.value != "" ==> r == fieldLabel.value
    ensures fieldLabel.None? || fieldLabel.value == "" ==> r == FallbackLabel
  {
    match fieldLabel
    case Some(l) => if l != "" then l else FallbackLabel
    case None => FallbackLabel
  }

  /** The failure message after `:label` substitution. */
  function LabelledMessage(message: string, fieldLabel: Option<string>): (r: string)
    ensures (forall i :: !OccursAt(message, LabelKey, i)) ==> r == message
    ensures forall i :: IsFirstOccurrence(message, LabelKey, i) ==>
      r == ReplaceAt(message, LabelKey, LabelOrFallback(fieldLabel), i)
  {
    ReplaceFirst(message, LabelKey, LabelOrFallback(fieldLabel))
  }

  /** `makeValidator({ predicate, message })`: valid when the predicate holds,
      otherwise invalid with the first `:label` replaced by the label. */
  function MakeValidator(test: Predicate, message: string): (r: Validator)
    ensures forall v, form, fieldLabel :: test(v, form) ==> r(v, form, fieldLabel) == Valid()
    ensures forall v, form, fieldLabel :: !test(v, form) ==>
      r(v, form, fieldLabel) == Invalid(LabelledMessage(message, fieldLabel))
  {
    (v, form, fieldLabel) => if test(v, form) then Valid() else Invalid(LabelledMessage(message, fieldLabel))
  }

  /** Whether a validator passes never depends on the label it is given. */
  lemma ValidityIgnoresLabel(test: Predicate, message: string, v: JsValue, form: Option<FormId>, l1: Option<string>, l2: Option<string>)
    ensures MakeValidator(test, message)(v, form, l1).isValid == MakeValidator(test, message)(v, form, l2).isValid
    ensures MakeValidator(test, message)(v, form, l1).isValid == test(v, form)
  {
  }

  /** On failure a message without `:label` is returned as is, whatever the label. */
  lemma MessageWithoutLabelUnchanged(test: Predicate, message: string, v: JsValue, form: Option<FormId>, fieldLabel: Option<string>)
    requires !test(v, form)
    requires forall i :: !OccursAt(message, LabelKey, i)
    ensures MakeValidator(test, message)(v, form, fieldLabel).error == message
  {
  }

  /** On failure the leftmost `:label` becomes the label (or 'Field' when the
      label is absent or empty), inserted literally when it holds no `$`. */
  lemma LabelSubstitution(test: Predicate, message: string, v: JsValue, form: Option<FormId>, fieldLabel: Option<string>)
    requires !test(v, form)
    requires fieldLabel.Some? ==> '$' !in fieldLabel.value
    ensures forall i :: IsFirstOccurrence(message, LabelKey, i) ==>
      MakeValidator(test, message)(v, form, fieldLabel).error ==
        message[..i] + LabelOrFallback(fieldLabel) + message[i + |LabelKey|..]
  {
    forall i | IsFirstOccurrence(message, LabelKey, i)
      ensures LabelledMessage(message, fieldLabel) == message[..i] + LabelOrFallback(fieldLabel) + message[i + |LabelKey|..]
    {
      ReplaceFirstLiteral(message, LabelKey, LabelOrFallback(fieldLabel), i);
    }
  }

  /** The configured message, or the library default when no config is passed. */
  function MessageOr(message: Option<string>, default: string): string {
    message.GetOr(default)
  }

  /** The message a length validator is built with: `:length` replaced by `n`. */
  function LengthMessage(message: string, n: int): (r: string)
    ensures (forall i :: !OccursAt(message, LengthKey, i)) ==> r == message
    ensures forall i :: IsFirstOccurrence(message, LengthKey, i) ==>
      r == message[..i] + IntToDecimal(n) + message[i + |LengthKey|..]
  {
    ReplaceFirst(message, LengthKey, IntToDecimal(n))
  }

  /** `minLength(n, config?)`: passes iff the value's length is at least `n`. */
  function MinLength(n: int, message: Option<string>): (r: Validator)
    ensures forall s, form, fieldLabel :: r(Str(s), form, fieldLabel).isValid <==> |s| >= n
    ensures forall v, form, fieldLabel :: JsLength(v).None? ==> !r(v, form, fieldLabel).isValid
    ensures forall v, form, fieldLabel :: !r(v, form, fieldLabel).isValid ==>
      r(v, form, fieldLabel).error == LabelledMessage(LengthMessage(MessageOr(message, Config.MinLengthMessage), n), fieldLabel)
  {
    MakeValidator(
      (v, form) => JsLength(v).Some? && JsLength(v).value >= n,
      LengthMessage(MessageOr(message, Config.MinLengthMessage), n))
  }

  /** `maxLength(n, config?)`: passes iff the value's length is at most `n`. */
  function MaxLength(n: int, message: Option<string>): (r: Validator)
    ensures forall s, form, fieldLabel :: r(Str(s), form, fieldLabel).isValid <==> |s| <= n
    ensures forall v, form, fieldLabel :: JsLength(v).None? ==> !r(v, form, fieldLabel).isValid
    ensures forall v, form, fieldLabel :: !r(v, form, fieldLabel).isValid ==>
      r(v, form, fieldLabel).error == LabelledMessage(LengthMessage(MessageOr(message, Config.MaxLengthMessage), n), fieldLabel)
  {
    MakeValidator(
      (v, form) => JsLength(v).Some? && JsLength(v).value <= n,
      LengthMessage(MessageOr(message, Config.MaxLengthMessage), n))
  }

  /** `length(n, config?)`: passes iff the value's length is exactly `n`. */
  function Length(n: int, message: Option<string>): (r: Validator)
    ensures forall s, form, fieldLabel :: r(Str(s), form, fieldLabel).isValid <==> |s| == n
    ensures forall v, form, fieldLabel :: JsLength(v).None? ==> !r(v, form, fieldLabel).isValid
    ensures forall v, form, fieldLabel :: !r(v, form, fieldLabel).isValid ==>
      r(v, form, fieldLabel).error == LabelledMessage(LengthMessage(MessageOr(message, Config.LengthMessage), n), fieldLabel)
  {
    MakeValidator(
      (v, form) => JsLength(v).Some? && JsLength(v).value == n,
      LengthMessage(MessageOr(message, Config.LengthMessage), n))
  }

  /** `required(config?)`: passes iff the value is truthy. */
  function Required(message: Option<string>): (r: Validator)
    ensures forall v, form, fieldLabel :: r(v, form, fieldLabel).isValid <==> Truthy(v)
    ensures forall v, form, fieldLabel :: !r(v, form, fieldLabel).isValid ==>
      r(v, form, fieldLabel).error == LabelledMessage(MessageOr(message, Config.RequiredMessage), fieldLabel)
  {
    MakeValidator((v, form) => Truthy(v), MessageOr(message, Config.RequiredMessage))
  }

  /** A length validator rejects a value on both sides of `n`. */
  lemma LengthRejectsShorterAndLonger(n: int, message: Option<string>, s: string, form: Option<FormId>, fieldLabel: Option<string>)
    requires |s| != n
    ensures !Length(n, message)(Str(s), form, fieldLabel).isValid
    ensures !MinLength(n, message)(Str(s), form, fieldLabel).isValid || !MaxLength(n, message)(Str(s), form, fieldLabel).isValid
  {
  }

  /** With the default message, a failing `minLength(n)` reports `n` in
      decimal, whatever the label. */
  lemma DefaultMinLengthMessage(n: int, s: string, form: Option<FormId>, fieldLabel: Option<string>)
    requires |s| < n
    ensures MinLength(n, None)(Str(s), form, fieldLabel).error == "Must have at least " + IntToDecimal(n) + " characters"
  {
    assert Config.MinLengthMessage == "Must have at least " + LengthKey + " characters";
    FilledTemplate("Must have at least ", " characters", n, fieldLabel);
  }

  /** With the default message, a failing `maxLength(n)` reports `n` in decimal. */
  lemma DefaultMaxLengthMessage(n: int, s: string, form: Option<FormId>, fieldLabel: Option<string>)
    requires |s| > n
    ensures MaxLength(n, None)(Str(s), form, fieldLabel).error == "Must have at most " + IntToDecimal(n) + " characters"
  {
    assert Config.MaxLengthMessage == "Must have at most " + LengthKey + " characters";
    FilledTemplate("Must have at most ", " characters", n, fieldLabel);
  }

  /** With the default message, a failing `length(n)` reports `n` in decimal. */
  lemma DefaultLengthMessage(n: int, s: string, form: Option<FormId>, fieldLabel: Option<string>)
    requires |s| != n
    ensures Length(n, None)(Str(s), form, fieldLabel).error == "Must have exactly " + IntToDecimal(n) + " characters"
  {
    assert Config.LengthMessage == "Must have exactly " + LengthKey + " characters";
    FilledTemplate("Must have exactly ", " characters", n, fieldLabel);
  }

  /** Filling `p + ":length" + q` with `n` and then a label, when `p` and `q`
      hold no colon, gives `p + n.toString() + q`. */
  lemma FilledTemplate(p: string, q: string, n: int, fieldLabel: Option<string>)
    requires ':' !in p && ':' !in q
    ensures LabelledMessage(LengthMessage(p + LengthKey + q, n), fieldLabel) == p + IntToDecimal(n) + q
  {
    var d := IntToDecimal(n);
    ReplaceInTemplate(p, LengthKey, q, d);
    assert ':' !in p + d + q;
    NoOccurrenceWithoutHead(p + d + q, LabelKey);
  }

  /** A message whose only colon starts `:label` holds no `:length`. */
  lemma NoLengthKeyInLabelTemplate(p: string, q: string)
    requires ':' !in p && ':' !in q
    ensures forall i :: !OccursAt(p + LabelKey + q, LengthKey, i)
  {
    var s := p + LabelKey + q;
    forall i ensures !OccursAt(s, LengthKey, i) {
      if 0 <= i && i + |LengthKey| <= |s| {
        assert s[i..i + |LengthKey|][0] == s[i];
        assert s[i..i + |LengthKey|][3] == s[i + 3];
        if i < |p| {
          assert s[i] == p[i];
        } else if i == |p| {
          assert s[i + 3] == LabelKey[3] == 'b';
        } else if i < |p| + |LabelKey| {
          assert s[i] == LabelKey[i - |p|];
        } else {
          assert s[i] == q[i - |p| - |LabelKey|];
        }
      }
    }
  }

  /** A length-validator message with `:label` and no `:length` keeps its text
      and gets only the label. */
  lemma LabelOnlyTemplate(p: string, q: string, n: int, fieldLabel: Option<string>)
    requires ':' !in p && ':' !in q
    requires fieldLabel.Some? ==> '$' !in fieldLabel.value
    ensures LabelledMessage(LengthMessage(p + LabelKey + q, n), fieldLabel) == p + LabelOrFallback(fieldLabel) + q
  {
    NoLengthKeyInLabelTemplate(p, q);
    ReplaceInTemplate(p, LabelKey, q, LabelOrFallback(fieldLabel));
  }

  /** `:length` is filled when the validator is built and `:label` when it
      fails, so a message holding both gets both. */
  lemma LengthThenLabelTemplate(p: string, q: string, r: string, n: int, fieldLabel: Option<string>)
    requires ':' !in p && ':' !in q
    requires fieldLabel.Some? ==> '$' !in fieldLabel.value
    ensures LabelledMessage(LengthMessage(p + LengthKey + q + LabelKey + r, n), fieldLabel)
      == p + IntToDecimal(n) + q + LabelOrFallback(fieldLabel) + r
  {
    var d := IntToDecimal(n);
    assert p + LengthKey + q + LabelKey + r == p + LengthKey + (q + LabelKey + r);
    ReplaceInTemplate(p, LengthKey, q + LabelKey + r, d);
    assert p + d + (q + LabelKey + r) == (p + d + q) + LabelKey + r;
    assert ':' !in p + d + q;
    ReplaceInTemplate(p + d + q, LabelKey, r, LabelOrFallback(fieldLabel));
  }

  /** The default `required` message has no `:label`, so it is reported verbatim. */
  lemma DefaultRequiredMessage(v: JsValue, form: Option<FormId>, fieldLabel: Option<string>)
    requires !Truthy(v)
    ensures Required(None)(v, form, fieldLabel).error == "This field is mandatory"
  {
    NoOccurrenceWithoutHead(Config.RequiredMessage, LabelKey);
  }

  /** An empty array is truthy, so `required` accepts an empty multi-select. */
  lemma RequiredAcceptsEmptyArray(ref: Ref, form: Option<FormId>, fieldLabel: Option<string>)
    ensures Required(None)(Arr(ref, []), form, fieldLabel).isValid
  {
  }
}

=== FILE: widgets.dfy ===
/** The field factories that only choose a default value: TextInput, select
    and multiSelect. */
module Widgets {
  import opened Wrappers
  import opened JsValues
  import opened Fields
  import FieldStates
  import ManualFields
  import Inputs

  /** `new TextInput(params)` and `textInput(params)`: an Input whose default
      value is '' when none (or undefined) is given. */
  function NewTextInput(p: FieldParams, placeholder: Option<string>, showErrors: Option<ErrorDisplay>): (f: Field)
    ensures f.kind.Input? && !f.kind.isFocused
    ensures f.kind.showErrors == showErrors.GetOr(OnBlur)
    ensures f.state.defaultValue == OrDefault(p.state.defaultValue, Str(""))
    ensures f.state.value == OrDefault(p.state.value, f.state.defaultValue)
    ensures p.state.defaultValue.None? && p.state.value.None? ==> Value(f) == Str("")
    ensures p.state.value.Some? && p.state.value.value != Undefined ==> Value(f) == p.state.value.value
    ensures !IsDirty(f) && f.presentedError == ""
    ensures f.hint == p.hint.GetOr("") && f.kind.placeholder == placeholder.GetOr("")
    ensures f.state == FieldStates.New(p.state.(defaultValue := Some(OrDefault(p.state.defaultValue, Str("")))))
  {
    var withDefault := p.(state := p.state.(defaultValue := Some(OrDefault(p.state.defaultValue, Str("")))));
    Inputs.New(withDefault, placeholder, showErrors)
  }

  /** `{ defaultValue: d, ...params }`: the spread keeps any defaultValue the
      caller wrote, even an explicit undefined. */
  function SpreadDefault(p: FieldParams, d: JsValue): (r: FieldParams)
    ensures r.state.defaultValue == Some(p.state.defaultValue.GetOr(d))
    ensures r.(state := r.state.(defaultValue := p.state.defaultValue)) == p
  {
    p.(state := p.state.(defaultValue := Some(p.state.defaultValue.GetOr(d))))
  }

  /** `select(params)`: a ManualField whose default value is null unless given. */
  function NewSelect(p: FieldParams): (f: Field)
    ensures f.kind == Manual && f.presentedError == ""
    ensures p.state.defaultValue.None? ==> f.state.defaultValue == Null
    ensures p.state.defaultValue.Some? ==> f.state.defaultValue == p.state.defaultValue.value
    ensures p.state.defaultValue.None? && p.state.value.None? ==> Value(f) == Null
    ensures p.state.value.Some? && p.state.value.value != Undefined ==> Value(f) == p.state.value.value
    ensures !IsDirty(f) && f.hint == p.hint.GetOr("")
    ensures f.state == FieldStates.New(SpreadDefault(p, Null).state)
  {
    ManualFields.New(SpreadDefault(p, Null))
  }

  /** `multiSelect(params)`: a ManualField over arrays whose default is a
      new empty array (identity `newRef`, distinct from any array the
      caller passes as the value) unless given. */
  function NewMultiSelect(p: FieldParams, newRef: Ref): (f: Field)
    requires p.state.value.Some? && !IsPrimitive(p.state.value.value) ==> p.state.value.value.ref != newRef
    ensures f.kind == Manual && f.presentedError == ""
    ensures p.state.defaultValue.None? ==> f.state.defaultValue == Arr(newRef, [])
    ensures p.state.defaultValue.Some? ==> f.state.defaultValue == p.state.defaultValue.value
    ensures p.state.defaultValue.None? && p.state.value.None? ==> Value(f) == Arr(newRef, [])
    ensures p.state.value.Some? && p.state.value.value != Undefined ==> Value(f) == p.state.value.value
    ensures !IsDirty(f) && f.hint == p.hint.GetOr("")
    ensures f.state == FieldStates.New(SpreadDefault(p, Arr(newRef, [])).state)
  {
    ManualFields.New(SpreadDefault(p, Arr(newRef, [])))
  }

  /** Changing a multi-select to a different array with the same elements
      makes it dirty: dirtiness compares identities. */
  lemma SameElementsDifferentArrayIsDirty(p: FieldParams, newRef: Ref, other: Ref)
    requires p.state.defaultValue.None? && p.state.value.None?
    requires other != newRef
    ensures IsDirty(ManualFields.Change(NewMultiSelect(p, newRef), Arr(other, [])))
    ensures !IsDirty(ManualFields.Change(NewMultiSelect(p, newRef), Arr(newRef, [])))
  {
  }

  /** A multi-select given an array value but no default clears to its own
      new empty array, which is never the given one: clearing leaves it dirty. */
  lemma ClearedMultiSelectIsDirty(p: FieldParams, newRef: Ref)
    requires p.state.defaultValue.None? && p.state.value.Some? && p.state.value.value.Arr?
    requires p.state.value.value.ref != newRef
    ensures FieldStates.IsDirty(FieldStates.Clear(NewMultiSelect(p, newRef).state))
  {
  }

  /** An explicit `defaultValue: undefined` survives the spread, unlike a
      missing one: a select then holds undefined rather than null. */
  lemma ExplicitUndefinedDefault(p: FieldParams)
    requires p.state.defaultValue == Some(Undefined) && p.state.value.None?
    ensures Value(NewSelect(p)) == Undefined
    ensures Value(NewTextInput(p, None, None)) == Str("")
  {
  }
}

=== FILE: wrappers.dfy ===
/** Optional values and the outcome of operations that may throw. */
module Wrappers {

  /** A value that may be absent; for parameters, None is a property left out. */
  datatype Option<+T> = None | Some(value: T) {

    /** The carried value, or the given default when absent. */
    function GetOr(default: T): T {
      match this
      case Some(v) => v
      case None => default
    }
  }

  /** The outcome of an operation that may throw: Failure stands for the thrown error. */
  datatype Result<+R, +E> = Success(value: R) | Failure(error: E)
}
